=== FILE: README.md ===
# ProcessSofastFixed: a Dafny model of the fixed-pattern deflectometry orchestrator

This project models the control and bookkeeping layer of OpenCSP's
`ProcessSofastFixed`, the class that runs fixed-pattern (dot-grid) SOFAST
deflectometry for single mirror facets and for multi-facet ensembles. It
covers the following:

- the instance lifecycle: construction, measurement loading, single-facet and
  multi-facet processing, re-pointing, and `get_optic`;
- the input checks and the exceptions they raise;
- the mask step that switches the "keep largest area" option off for ensembles;
- how the per-facet result lists are rebuilt on every run;
- the frame algebra that carries screen points and camera rays into optic
  and facet coordinates;
- the slope/normal convention `n = (-sx, -sy, 1)`;
- the choice of the pointing reference and the facet-pointing alignment.

The numerical work is done by collaborators. Their code is not part of this
model, so they are parameters of type `Collaborators`:

- blob detection and blob indexing;
- the raw mask and the largest-area filter;
- the geometry solvers;
- the slope solver;
- `TransformXYZ` composition and application;
- `Vxyz.align_to`;
- the length by which `Uxyz` normalises a vector.

The camera's pixel-to-ray map and the dot pattern's index-to-screen map are
function fields of their records.

Every public call is a pure function from an `Orchestrator` record (the
instance) to an `Outcome`. An `Outcome` holds the instance as the call leaves
it, together with the exception it raised, if any. Attributes assigned before
a raise stay assigned, as they do on the Python instance.

Rotations are 3x3 real matrices. `inv()` is the transpose, and orthonormality
is a hypothesis wherever a property needs it. Reals are exact, so no
floating-point rounding is modelled. The model follows numpy where it
matters:

- an int reference in -n..-1 counts from the end, and one below -n raises
  `IndexError`;
- a single slope is broadcast over all points;
- a zero normal z-component gives no slope (`None`) rather than inf/nan;
- the mean over zero facets (NaN in numpy) gives no reference pointing, and
  the ensemble list stays empty.

Modules:

- `Results` and `Errors`: option/result types and one error variant per
  exception cause.
- `Linear` and `Frames`: vectors, rotations, and frame changes.
- `SlopeNormals`: the slope/normal convention.
- `Pointing`: validating and choosing the pointing reference.
- `SofastData`: records, collaborators, and the instance record.
- `SolverInputs`: the blob index, the mask, and the per-facet slope-solver inputs.
- `FacetPointing`: `_calculate_facet_pointing`.
- `Process`: construction, loading, and the two processing entry points.
- `OpticOutput`: `get_optic`.
- `Runs`: sequences of calls on one instance.

### Where the code departs from its own documentation

- **Input-length check.** The docstring of `process_multi_facet_optic`
  (lines 344-349) describes the known points and indices as "Length N" with
  N the number of facets. The error message at lines 356-358 reports the
  four lengths as lengths that should agree. The check itself, at line 353,
  is `len(a) != len(b) != len(c) != len(d)`. Python reads that as
  `a != b and b != c and c != d`, so it raises only when every neighbouring
  pair of lengths differs. This model follows the code (`Process.ChainedNe`):
  - 3 definitions with 2 surfaces, 2 points and 2 indices pass the check;
  - after that, the instance is switched to a three-facet ensemble;
  - the run then fails with an `IndexError` (`Runs.ShortSurfaceListFailsLate`).
- **Stale ensemble results.** `process_single_facet_optic` (lines 305-324)
  never assigns `data_calculation_ensemble` or `data_ensemble_def`. An
  earlier ensemble's results therefore stay on the instance after a
  single-facet run (`Process.ProcessSingleFacet`).

## Model

| member | source | states |
|---|---|---|
| Linear.Inv | opencsp/app/sofast/lib/ProcessSofastFixed.py:174-176 | the inverse of an orthonormal rotation is orthonormal and multiplies with it to the identity on both sides |
| Frames.FrameOf | opencsp/app/sofast/lib/ProcessSofastFixed.py:168-180 | the optic->camera and optic->screen rotations and offsets; with an orthonormal rotation, the camera-origin offset maps to the camera origin and the screen offset maps to the camera->screen vector |
| Frames.CameraAndScreenSeenFromOptic | opencsp/app/sofast/lib/ProcessSofastFixed.py:178-180 | mapping the computed optic-frame offsets back to the camera frame gives the camera origin and the screen origin |
| Frames.FacetCameraPose | opencsp/app/sofast/lib/ProcessSofastFixed.py:235-242 | the facet pose is the ensemble pose composed with the facet's placement: every facet point lands in the camera frame where the ensemble pose puts its ensemble position |
| Frames.FacetPointsThroughEnsemble | opencsp/app/sofast/lib/ProcessSofastFixed.py:235-242 | the composed facet pose and the two-step facet->ensemble->camera map agree on every point |
| Frames.MultiFacetReducesToSingle | opencsp/app/sofast/lib/ProcessSofastFixed.py:235-253 | a facet with identity placement gets the ensemble's own pose and exactly the single-facet frame |
| Frames.ScreenPointsInOptic | opencsp/app/sofast/lib/ProcessSofastFixed.py:182-184 | one optic-frame point per screen point, and each maps back to the camera frame where the screen point is |
| Frames.ScreenPointsLand | opencsp/app/sofast/lib/ProcessSofastFixed.py:182-184 | each transformed screen point is the same physical point seen from the optic |
| Frames.ScreenPointLands | opencsp/app/sofast/lib/ProcessSofastFixed.py:182-184 | one screen point, moved into the optic frame and back out through the optic pose, is where the screen calibration puts it in the camera frame |
| Frames.RaysInOptic | opencsp/app/sofast/lib/ProcessSofastFixed.py:186-188 | one optic-frame ray per pixel ray, and rotating it back gives the camera ray |
| Frames.RaysReturn | opencsp/app/sofast/lib/ProcessSofastFixed.py:186-188 | rotating rays by the inverse of an orthonormal optic rotation and back gives the original rays |
| SlopeNormals.NormalOf | opencsp/app/sofast/lib/ProcessSofastFixed.py:447-449 | the normal of slope (sx, sy) has z = 1 and is perpendicular to both surface tangents (1, 0, sx) and (0, 1, sy) |
| SlopeNormals.SlopeOf | opencsp/app/sofast/lib/ProcessSofastFixed.py:454 | a slope exists exactly when n_z != 0, and the normal of that slope scaled by n_z is the vector back |
| SlopeNormals.SlopeNormalRoundTrip | opencsp/app/sofast/lib/ProcessSofastFixed.py:447-454 | reading the slope of any positive multiple of a slope's normal returns that slope |
| SlopeNormals.SlopeIgnoresScale | opencsp/app/sofast/lib/ProcessSofastFixed.py:449-454 | normalising a normal before rotating it does not change the slope read back |
| SlopeNormals.SlopeOfScaled | opencsp/app/sofast/lib/ProcessSofastFixed.py:454 | the slope of a vector is unchanged by any non-zero scale factor |
| Pointing.ValidateReference | opencsp/app/sofast/lib/ProcessSofastFixed.py:400-407 | the step passes exactly when slopes are solved and the reference is 'average' or an int below the facet count (negative ints pass); each failure names its cause |
| Pointing.PointingOf | opencsp/app/sofast/lib/ProcessSofastFixed.py:425-427 | the rotated boresight (0, 0, 1) is the rotation's third column |
| Pointing.Mean | opencsp/app/sofast/lib/ProcessSofastFixed.py:433 | the mean times the count is the sum of the pointing vectors |
| Pointing.ReferencePointing | opencsp/app/sofast/lib/ProcessSofastFixed.py:429-433 | an int picks that column with numpy's negative indexing and raises IndexError below -n; 'average' gives the mean, and nothing when there are no facets |
| Pointing.SumOfCopies | opencsp/app/sofast/lib/ProcessSofastFixed.py:433 | the sum of n copies of a vector is n times that vector |
| Pointing.AverageAgreesWithIndexWhenAligned | opencsp/app/sofast/lib/ProcessSofastFixed.py:429-433 | when all facets point the same way, 'average' and every in-range index select the same reference |
| Pointing.MirroredPairAveragesToBoresight | opencsp/app/sofast/lib/ProcessSofastFixed.py:429-435 | two facets tilted oppositely about the boresight average to a reference on the boresight |
| SolverInputs.Zip | opencsp/app/sofast/lib/ProcessSofastFixed.py:108-109 | pairs known points with known indices in order, as far as the shorter list reaches |
| SolverInputs.FindBlobs | opencsp/app/sofast/lib/ProcessSofastFixed.py:90-111 | the index holds the detected blobs, the dot extent and both search settings, plus one seed run per zipped known point |
| SolverInputs.DarkImage | opencsp/app/sofast/lib/ProcessSofastFixed.py:115 | an all-zero image of the measured image's shape |
| SolverInputs.RawMaskIgnoresKeepOption | opencsp/app/sofast/lib/ProcessSofastFixed.py:115-123 | the raw mask is computed from the dark and measured images and the four threshold settings only, so the "keep largest area" option does not reach it |
| SolverInputs.CalculateMask | opencsp/app/sofast/lib/ProcessSofastFixed.py:113-134 | in multi-facet mode with the option set, the mask is raw, a warning is given and the option is cleared; otherwise the option filters the raw mask and stays as it was; the option ends set exactly when it was set and the run is not multi-facet; no other mask setting changes |
| SolverInputs.PoseInput | opencsp/app/sofast/lib/ProcessSofastFixed.py:165-204 | solver input for a pose: surface, alignment point, distance and measure ray as given; camera and screen offsets, pixel rays and screen points all express the camera-frame geometry in the optic frame |
| SolverInputs.SingleFacetInput | opencsp/app/sofast/lib/ProcessSofastFixed.py:165-204 | uses the facet centroid, the measured distance and the first per-facet geometry record; raises IndexError exactly when there is no such record; all indexed points are used, one ray and one screen point each, and under the pose of refinement 1's rotation and refinement 2's position the rays rotate back to the camera's pixel rays, the screen points land on the calibrated screen and the camera/screen offsets map to zero and to the camera->screen vector |
| SolverInputs.FacetInput | opencsp/app/sofast/lib/ProcessSofastFixed.py:226-279 | facet i's input uses surface i and facet i's alignment point, distance and measure ray; its screen offset maps through the facet placement and ensemble pose to the camera->screen vector; only the points inside facet i's image region are used, and under the facet pose (refinement 2's rotation and refinement 3's position composed with facet i's placement) its rays rotate back to the camera's pixel rays, its screen points land on the calibrated screen and its camera offset maps to zero |
| SolverInputs.MultiFacetInputs | opencsp/app/sofast/lib/ProcessSofastFixed.py:226-280 | one input per facet, entry i from surface i and geometry record i; raises IndexError exactly when one of the per-facet lists is too short |
| FacetPointing.AlignmentUndo | opencsp/app/sofast/lib/ProcessSofastFixed.py:421 | the inverted alignment is built from a pure translation that cancels the alignment's translation and a pure rotation that undoes its (orthonormal) rotation on every vector |
| FacetPointing.FacetToEnsemble | opencsp/app/sofast/lib/ProcessSofastFixed.py:412-423 | one transform per facet, the inverted alignment composed with the ensemble placement; raises IndexError exactly when a list is too short |
| FacetPointing.GlobalSlope | opencsp/app/sofast/lib/ProcessSofastFixed.py:447-454 | the global slope is the slope of the rotated normal, and the identity rotation keeps the slope |
| FacetPointing.GlobalSlopes | opencsp/app/sofast/lib/ProcessSofastFixed.py:442-454 | one global slope per facet slope, each read from the rotated normal |
| FacetPointing.EnsembleEntry | opencsp/app/sofast/lib/ProcessSofastFixed.py:442-467 | the entry keeps the transform; its pointing is the rotation's third column, its slopes come from rotated normals, and its points are the facet points carried by the transform |
| FacetPointing.AlignedEntries | opencsp/app/sofast/lib/ProcessSofastFixed.py:435-467 | entry i is facet i under the alignment composed with its facet->ensemble transform |
| FacetPointing.Pointings | opencsp/app/sofast/lib/ProcessSofastFixed.py:425-427 | one pointing per facet transform, in order, each the third column of its rotation |
| FacetPointing.ReferenceOf | opencsp/app/sofast/lib/ProcessSofastFixed.py:425-433 | an int reference is that facet's pointing (counted from the end when negative) and raises IndexError below -n or at n and above; 'average' gives a vector whose n-fold is the sum of all pointings, and none when there are no facets; any other value is rejected |
| FacetPointing.CalculateFacetPointing | opencsp/app/sofast/lib/ProcessSofastFixed.py:389-467 | a failed validation leaves the instance unchanged; after validation only the ensemble list changes; it is emptied first, so a later failure leaves it empty; on success the list holds, for every facet, its facet->ensemble transform composed with the rotation `align_to` gives for the chosen reference pointing (empty only when there are no facets), with that pointing and list lengths; an int below -n raises IndexError; a validated call succeeds exactly when the facet count is set, the ensemble definition is there (or there are no facets), the placement and slope lists cover every facet and an int reference is at least -n |
| FacetPointing.PointingIgnoresOldList | opencsp/app/sofast/lib/ProcessSofastFixed.py:409-410 | once the reference is valid, the outcome does not depend on what the ensemble list held before |
| OpticOutput.SlopeAt | opencsp/app/sofast/lib/ProcessSofastFixed.py:480 | numpy broadcasting: a single slope applies to every point, otherwise point k takes slope k |
| OpticOutput.ProjXY | opencsp/app/sofast/lib/ProcessSofastFixed.py:484 | one xy point per corner, keeping its x and y |
| OpticOutput.NormalsOf | opencsp/app/sofast/lib/ProcessSofastFixed.py:479-482 | one upward unit normal per point, whose slope reads back as the (possibly broadcast) facet slope |
| OpticOutput.UnitNormal | opencsp/app/sofast/lib/ProcessSofastFixed.py:479-482 | the normalised normal points upward and reads back as its slope |
| OpticOutput.FacetEntry | opencsp/app/sofast/lib/ProcessSofastFixed.py:475-492 | facet j succeeds exactly when its slope data, facet definition and (in an ensemble) its ensemble entry exist and the slope shape fits; an ensemble list never set raises the missing-attribute error and a short one IndexError; the mirror keeps the solved points, takes upward normals (positive z) in the slope convention and projects the corners to xy |
| OpticOutput.FacetsFrom | opencsp/app/sofast/lib/ProcessSofastFixed.py:475-492 | the loop succeeds exactly when every facet is ready; it gives one mirror per facet in order and, in an ensemble, each facet's ensemble transform |
| OpticOutput.GetOptic | opencsp/app/sofast/lib/ProcessSofastFixed.py:469-500 | an ensemble of num_facets mirrors with their transforms in multi-facet mode, mirror k being exactly facet k's entry, else the first facet's entry with upward normals in the slope convention; fails exactly when the facet count is unset, a facet is not ready, or a single-mode run has no facet |
| Process.Init | opencsp/app/sofast/lib/ProcessSofastFixed.py:39-88 | a fresh instance stores the given orientation, camera, dot locations and parameters, and has no optic type, facet count, measurement, facet or ensemble definitions, surfaces, blob index, geometry, solver inputs, slope results or ensemble list |
| Process.LoadMeasurement | opencsp/app/sofast/lib/ProcessSofastFixed.py:136-144 | the measurement is replaced and nothing else changes |
| Process.ChainedNe | opencsp/app/sofast/lib/ProcessSofastFixed.py:353 | the chained comparison is false exactly when some neighbouring pair of lengths is equal, so rejection does not imply that all lengths differ |
| Process.ChainedCheckAdmitsMismatches | opencsp/app/sofast/lib/ProcessSofastFixed.py:352-359 | (3,2,2,2), (3,2,3,3) and (2,3,3,3) pass the check, (3,2,3,2) is rejected, and equal lengths always pass |
| Process.ProcessSingleFacet | opencsp/app/sofast/lib/ProcessSofastFixed.py:282-324 | raises, with the instance untouched, exactly when the known-point count is not one; otherwise it records one facet and raises the missing-attribute error when no measurement is loaded, and with a measurement it succeeds exactly when the geometry yields a per-facet record; a failed call keeps the previous solver and slope lists; past the checks it seeds the index with the one point, hands the option-filtered mask to the geometry and on success stores exactly the single-optic solver input built from that geometry and index, and its slope result; the options and the ensemble list stay |
| Process.ProcessMultiFacet | opencsp/app/sofast/lib/ProcessSofastFixed.py:326-387 | raises, with the instance untouched, exactly when the chained check fails; otherwise it records the ensemble and raises the missing-attribute error when no measurement is loaded, and with a measurement it succeeds exactly when the geometry, ensemble definition and surface lists cover every facet; a failed call keeps the previous solver and slope lists; past the checks it hands the raw mask to the geometry and clears the option; on success the index is seeded from the zipped known points, the solver list is exactly the per-facet inputs built from the stored geometry and index, with one slope result per facet, solver i from surface i, and the ensemble list is exactly what pointing against 'average' computes from them; only the option can change in the settings, and it is never set |
| Process.SolveEnsemble | opencsp/app/sofast/lib/ProcessSofastFixed.py:377-387 | once every facet has its solver input, the solver list is those inputs, slope result i is the solution of input i, and pointing against 'average' succeeds with one ensemble entry per facet |
| Runs.FreshInstanceHasNoResults | opencsp/app/sofast/lib/ProcessSofastFixed.py:39-88 | on a fresh instance get_optic raises the missing-attribute error, re-pointing raises because no slopes were solved, and a processing call past its input check raises the missing-attribute error |
| Runs.Step | opencsp/app/sofast/lib/ProcessSofastFixed.py:125-144 | only loading changes the measurement, no call sets the option, and a checked multi-facet call on a loaded instance clears it |
| Runs.FlagNeverComesBack | opencsp/app/sofast/lib/ProcessSofastFixed.py:125-134 | after any sequence of calls the option is set only if it was set at the start |
| Runs.MeasurementStaysLoaded | opencsp/app/sofast/lib/ProcessSofastFixed.py:136-144 | once loaded, a measurement stays loaded through any sequence of calls |
| Runs.MultiRunClearsFlagForGood | opencsp/app/sofast/lib/ProcessSofastFixed.py:125-130 | once a checked multi-facet call runs on a loaded instance, the option stays off for the rest of the sequence, whether that call later succeeded or not |
| Runs.SingleRunReplacesResults | opencsp/app/sofast/lib/ProcessSofastFixed.py:305-324 | two instances with the same setup raise the same error, and on success end equal except for the ensemble data each held before |
| Runs.MultiRunReplacesResults | opencsp/app/sofast/lib/ProcessSofastFixed.py:361-387 | two instances with the same setup raise the same error and on success end in the same state |
| Runs.RepeatedRunIsStable | opencsp/app/sofast/lib/ProcessSofastFixed.py:113-134 | repeating a successful processing call gives the same instance and no error |
| Runs.ShortSurfaceListFailsLate | opencsp/app/sofast/lib/ProcessSofastFixed.py:353-365 | 3 facet definitions with 2 surfaces, points and indices switch the instance to a three-facet ensemble and then raise IndexError, leaving the previous run's solver and slope lists in place |

## Left out

- OpenCV blob detection, the blob-detector settings and the `BlobIndex` search itself are not modelled. They are collaborators: the model records the index's settings and seed runs, not what the search finds.
- Mask thresholding and the largest-area filter (`image_processing`) are not modelled. They are collaborators that receive exactly the arguments the code passes.
- The geometry solvers `process_singlefacet_geometry` and `process_multifacet_geometry` are not modelled. They are collaborators that return only the fields the orchestrator reads; the general image-processing record and the error record are dropped. The camera and the geometry and debug parameters they receive are not passed.
- `SlopeSolver` (`fit_surface`, `solve_slopes`, `get_data`) is not modelled. It is one collaborator from the solver input to the slope data.
- `TransformXYZ` composition and application are not modelled. They are collaborators, because the model does not fix their algebra; only the rotation part used for pointing and slopes is read directly.
- `Vxyz.align_to` is not modelled. It is a collaborator returning a rotation, so that the reference maps to (0, 0, 1) is not proved.
- `Uxyz` normalisation is only a positive scale factor supplied by a collaborator. Unit length is not proved; the slope read back does not depend on it.
- Camera and dot-pattern calibration are not modelled. They are function fields supplied with the instance.
- Determinants are not modelled. "Rotation" means an orthonormal matrix, taken as a hypothesis where needed.
- Floating point is not modelled; reals are exact, so results agree with the code only up to rounding.
- `save_to_hdf` and HDF5 persistence, logging, and the debug parameter objects (`debug_geometry`, `debug_slope_solver.optic_data`) are left out because they are I/O or diagnostics.
- The `ParamsSofastFixed` default values are not modelled. `Process.Init` takes the parameters as an argument.
- The copying of facet and ensemble definitions and the aliasing of the caller's surface objects are not modelled: all values are immutable here.
- Exception types are coarse. `SlopesNotSolved` stands for both the `ValueError` at line 401 and the `AttributeError` raised when the attribute was never set. `MissingAttribute` covers every read of an unset attribute, including the `TypeError` for comparisons with an unset facet count.
- The example script `example/sofast_fringe/example_process_facet_ensemble.py` is a caller and is not part of this model.
- Runs.RepeatedRunIsStable: holds only because surfaces are immutable values and the slope solver is a pure function. The code stores the caller's surface objects (lines 308, 365), and `fit_surface` (lines 321, 381) refines their coefficients in place, so a repeated call in Python starts from the refined surface.
- Runs.SingleRunReplacesResults and Runs.MultiRunReplacesResults: for the same reason, they compare runs that receive surfaces in the same state; in-place refinement of a surface shared between runs is not modelled.
- SolverInputs.CalculateMask: the warning of lines 126-129 is reported in its result (`warned`), but it is not carried into the `Outcome` of a processing call, since logging is left out.
- Collaborators are total functions and never raise. In the code, blob detection and `BlobIndex.run` (lines 102-109), the mask functions, the geometry solvers and `fit_surface`/`solve_slopes` can raise; such an exception ends the call with whatever state was assigned before it. The model has no error path for these.
- Runs.Step: the "checked multi-facet call on a loaded instance clears the option" clause holds only because collaborators never raise. In the code the option is cleared inside `_calculate_mask` (line 371), after `find_blobs` (line 368), so an exception from blob detection or indexing leaves the option set.
- Runs.MultiRunClearsFlagForGood: for the same reason, it holds for a checked multi-facet call that reaches the mask step (line 371). "Whether it later succeeded or not" refers only to the failures after that point, such as a short surface list.
- Runs.ShortSurfaceListFailsLate: it assumes blob finding, masking and the geometry solver return normally. In the code, an exception from any of them would end the call before the third surface is read.
- Pointing.ValidateReference: an int reference is modelled as a Python int, so `bool` references (which Python also treats as ints) are not distinguished.

=== FILE: errors.dfy ===
/** The exceptions the fixed-pattern orchestrator can raise, one variant per cause. */
module Errors {

  datatype Error =
    /** `ValueError`: single-facet processing was given a number of known points other than one. */
    | KnownPointCount(given: nat)
    /** `ValueError`: the multi-facet input lists were judged inconsistent. */
    | LengthMismatch(facets: nat, surfaces: nat, pointsKnown: nat, indicesKnown: nat)
    /** `ValueError`: facet pointing was requested before slopes were solved. */
    | SlopesNotSolved
    /** `ValueError`: the pointing reference is neither `'average'` nor an int. */
    | BadReference
    /** `ValueError`: the pointing reference is an int that is not below the facet count. */
    | ReferenceOutOfRange(index: int, numFacets: int)
    /** `IndexError`: a list or array was subscripted past its end. */
    | IndexOutOfRange
    /** `AttributeError` / `TypeError`: an instance attribute was read before any run set it. */
    | MissingAttribute
    /** numpy broadcast `ValueError`: slope and point arrays of incompatible shapes. */
    | ShapeMismatch
}

=== FILE: facet_pointing.dfy ===
/**
 * `_calculate_facet_pointing`: every solved facet is carried into the
 * ensemble frame, the facets' pointing vectors are collected, the reference
 * pointing is aligned with the boresight and the slopes and surface points
 * of each facet are re-expressed in the aligned ensemble frame.
 */
module FacetPointing {
  import opened Linear
  import opened Results
  import opened Errors
  import opened Frames
  import opened SlopeNormals
  import opened Pointing
  import opened SofastData

  /**
   * The two factors of the transform built at ProcessSofastFixed.py line 421
   * from a slope solver's alignment: a pure translation that cancels the
   * alignment's translation, and a pure rotation that undoes its rotation.
   */
  function AlignmentUndo(t: Transform): (p: (Transform, Transform))
    ensures p.0.R == Identity && Add(t.V, p.0.V) == Zero
    ensures p.1.V == Zero
    ensures Orthonormal(t.R) ==> forall x :: Apply(p.1.R, Apply(t.R, x)) == x
  {
    InvUndoesAll(t.R);
    (FromV(Neg(t.V)), FromR(Inv(t.R)))
  }

  /** Every vector is returned by an orthonormal matrix after its inverse. */
  lemma InvUndoesAll(m: Mat3)
    ensures Orthonormal(m) ==> forall x :: Apply(Inv(m), Apply(m, x)) == x
  {
    forall x
      ensures Orthonormal(m) ==> Apply(Inv(m), Apply(m, x)) == x
    {
      InvUndoes(m, x);
    }
  }

  /** The inverted alignment of line 421: the translation factor composed with the rotation factor. */
  function InverseAlignment(c: Collaborators, t: Transform): Transform {
    c.compose(AlignmentUndo(t).0, AlignmentUndo(t).1)
  }

  /**
   * Facet -> ensemble transforms (lines 412-423), one per facet; a list too
   * short for some facet raises `IndexError`.
   */
  function FacetToEnsemble(c: Collaborators, ens: EnsembleDef, solved: seq<SlopeData>, n: nat)
    : (r: Result<seq<Transform>, Error>)
    ensures r.Ok? <==> n <= |ens.rFacetEnsemble| && n <= |ens.vFacetLocations| && n <= |solved|
    ensures r.Err? ==> r.error == IndexOutOfRange
    ensures r.Ok? ==> |r.value| == n && forall i :: 0 <= i < n ==>
      r.value[i] == c.compose(InverseAlignment(c, solved[i].transAlignment),
                              Transform(ens.rFacetEnsemble[i], ens.vFacetLocations[i]))
  {
    if n <= |ens.rFacetEnsemble| && n <= |ens.vFacetLocations| && n <= |solved| then
      Ok(seq(n, i requires 0 <= i < n =>
        c.compose(InverseAlignment(c, solved[i].transAlignment), Transform(ens.rFacetEnsemble[i], ens.vFacetLocations[i]))))
    else
      Err(IndexOutOfRange)
  }

  /**
   * Slope of one point after rotating its surface normal by `r` (lines
   * 447-454): the normal (-sx, -sy, 1) is normalised, rotated and read back
   * as a slope. The normalisation does not change the result.
   */
  function GlobalSlope(c: Collaborators, r: Mat3, s: Vec2): (g: Option<Vec2>)
    ensures g == SlopeOf(Apply(r, NormalOf(s)))
    ensures r == Identity ==> g == Some(s)
  {
    var n := NormalOf(s);
    var k := c.unitScale(n);
    SlopeIgnoresScale(r, n, k);
    ApplyIdentity(Scale(k, n));
    SlopeNormalRoundTrip(s, k);
    SlopeOf(Apply(r, Scale(k, n)))
  }

  /** Slopes of a facet after rotating their normals by `r`, point by point. */
  function GlobalSlopes(c: Collaborators, r: Mat3, slopes: seq<Vec2>): (g: seq<Option<Vec2>>)
    ensures |g| == |slopes|
    ensures forall k :: 0 <= k < |slopes| ==> g[k] == SlopeOf(Apply(r, NormalOf(slopes[k])))
    ensures r == Identity ==> forall k :: 0 <= k < |slopes| ==> g[k] == Some(slopes[k])
  {
    seq(|slopes|, k requires 0 <= k < |slopes| => GlobalSlope(c, r, slopes[k]))
  }

  /**
   * One facet in the aligned ensemble frame (lines 442-467): its transform,
   * the slopes read from its rotated normals, its surface points carried by
   * the transform, and its pointing.
   */
  function EnsembleEntry(c: Collaborators, t: Transform, d: SlopeData): (e: EnsembleData)
    ensures e.transFacetEnsemble == t
    ensures e.vFacetPointingEnsemble == Column(t.R, 2)
    ensures e.slopesEnsembleXY == GlobalSlopes(c, t.R, d.slopesFacetXY)
    ensures |e.vSurfPointsEnsemble| == |d.vSurfPointsFacet|
    ensures forall k :: 0 <= k < |d.vSurfPointsFacet| ==>
      e.vSurfPointsEnsemble[k] == c.applyTransform(t, d.vSurfPointsFacet[k])
  {
    EnsembleData(
      t,
      GlobalSlopes(c, t.R, d.slopesFacetXY),
      seq(|d.vSurfPointsFacet|, k requires 0 <= k < |d.vSurfPointsFacet| => c.applyTransform(t, d.vSurfPointsFacet[k])),
      PointingOf(t.R))
  }

  /** The ensemble list after alignment: entry `i` is facet `i` under `align` composed with its transform. */
  function AlignedEntries(c: Collaborators, align: Transform, ts: seq<Transform>, solved: seq<SlopeData>, n: nat)
    : (es: seq<EnsembleData>)
    requires n <= |ts| && n <= |solved|
    ensures |es| == n
    ensures forall i :: 0 <= i < n ==> es[i] == EnsembleEntry(c, c.compose(align, ts[i]), solved[i])
  {
    seq(n, i requires 0 <= i < n => EnsembleEntry(c, c.compose(align, ts[i]), solved[i]))
  }

  /** Pointing of every facet -> ensemble transform, in facet order (lines 425-427). */
  function Pointings(ts: seq<Transform>): (cols: seq<Vec3>)
    ensures |cols| == |ts|
    ensures forall i :: 0 <= i < |ts| ==> cols[i] == Column(ts[i].R, 2)
  {
    seq(|ts|, i requires 0 <= i < |ts| => PointingOf(ts[i].R))
  }

  /**
   * The reference pointing of a run (lines 425-433): the pointing of facet
   * `i` (counted from the end when negative), or the mean pointing.
   */
  function ReferenceOf(ts: seq<Transform>, ref: Reference): (r: Result<Option<Vec3>, Error>)
    ensures ref.Index? && 0 <= ref.i < |ts| ==> r == Ok(Some(Column(ts[ref.i].R, 2)))
    ensures ref.Index? && -|ts| <= ref.i < 0 ==> r == Ok(Some(Column(ts[|ts| + ref.i].R, 2)))
    ensures ref.Index? && (ref.i < -|ts| || |ts| <= ref.i) ==> r == Err(IndexOutOfRange)
    ensures ref.Average? ==> r.Ok? && (r.value.Some? <==> |ts| > 0)
    ensures ref.Average? && |ts| > 0 ==> Scale(|ts| as real, r.value.value) == Sum(Pointings(ts))
    ensures ref.Invalid? ==> r == Err(BadReference)
  {
    ReferencePointing(Pointings(ts), ref)
  }

  /** The ensemble definition as read by the pointing loop; with no facets it is never read. */
  function PlacementsOf(st: Orchestrator): EnsembleDef {
    if st.ensembleDef.Some? then st.ensembleDef.value else EnsembleDef([], [])
  }

  /**
   * `_calculate_facet_pointing(reference)` (lines 389-467). A reference that
   * fails validation leaves the instance unchanged. Otherwise the ensemble
   * list is reset to empty first, so a later failure (a list too short, an
   * int reference below -n) leaves it empty. On success every facet's
   * transform is composed with the rotation that `align_to` gives for the
   * chosen reference pointing. Nothing but the ensemble list changes.
   */
  function CalculateFacetPointing(st: Orchestrator, c: Collaborators, ref: Reference): (r: Outcome)
    ensures ValidateReference(st.calcFacet.Some?, ref, st.numFacets).Some? ==>
      r == Outcome(st, ValidateReference(st.calcFacet.Some?, ref, st.numFacets))
    ensures r.state == st.(calcEnsemble := r.state.calcEnsemble)
    ensures r.error.Some? ==> r.state.calcEnsemble == Some([]) || r.state == st
    ensures r.error.None? ==>
      && st.calcFacet.Some? && st.numFacets.Some? && r.state.calcEnsemble.Some?
      && |r.state.calcEnsemble.value| == st.numFacets.value
      && st.numFacets.value <= |st.calcFacet.value|
      && forall i :: 0 <= i < st.numFacets.value ==>
        var e := r.state.calcEnsemble.value[i];
        var d := st.calcFacet.value[i];
        && e.vFacetPointingEnsemble == Column(e.transFacetEnsemble.R, 2)
        && |e.slopesEnsembleXY| == |d.slopesFacetXY|
        && |e.vSurfPointsEnsemble| == |d.vSurfPointsFacet|
    ensures r.error.None? && st.calcFacet.Some? && st.numFacets.Some? ==>
      var n := st.numFacets.value;
      var ts := FacetToEnsemble(c, PlacementsOf(st), st.calcFacet.value, n);
      && ts.Ok?
      && ReferenceOf(ts.value, ref).Ok?
      && (ReferenceOf(ts.value, ref).value.None? ==> n == 0 && r.state.calcEnsemble == Some([]))
      && (ReferenceOf(ts.value, ref).value.Some? ==>
            r.state.calcEnsemble == Some(AlignedEntries(c, FromR(c.alignTo(ReferenceOf(ts.value, ref).value.value)),
                                                        ts.value, st.calcFacet.value, n)))
    ensures ValidateReference(st.calcFacet.Some?, ref, st.numFacets).None? ==>
      (r.error.None? <==>
        && st.numFacets.Some?
        && (st.ensembleDef.Some? || st.numFacets.value == 0)
        && FacetToEnsemble(c, PlacementsOf(st), st.calcFacet.value, st.numFacets.value).Ok?
        && (ref.Index? ==> ref.i + st.numFacets.value >= 0))
    ensures (&& ref.Index? && st.calcFacet.Some? && st.numFacets.Some? && st.ensembleDef.Some?
             && FacetToEnsemble(c, st.ensembleDef.value, st.calcFacet.value, st.numFacets.value).Ok?
             && ref.i + st.numFacets.value < 0) ==>
      r.error == Some(IndexOutOfRange) && r.state.calcEnsemble == Some([])
  {
    var invalid := ValidateReference(st.calcFacet.Some?, ref, st.numFacets);
    if invalid.Some? then Outcome(st, invalid)
    else
      var st1 := st.(calcEnsemble := Some([]));
      if st.numFacets.None? || (st.ensembleDef.None? && st.numFacets.value > 0) then Outcome(st1, Some(MissingAttribute))
      else
        var n := st.numFacets.value;
        var solved := st.calcFacet.value;
        match FacetToEnsemble(c, PlacementsOf(st), solved, n)
        case Err(e) => Outcome(st1, Some(e))
        case Ok(ts) =>
          match ReferenceOf(ts, ref)
          case Err(e) => Outcome(st1, Some(e))
          case Ok(None) => Outcome(st1, None)
          case Ok(Some(vRef)) =>
            var align := FromR(c.alignTo(vRef));
            Outcome(st1.(calcEnsemble := Some(AlignedEntries(c, align, ts, solved, n))), None)
  }

  /**
   * The pointing step never reads the ensemble list it replaces: once the
   * reference passes validation, the outcome is the same whatever the list held.
   */
  lemma PointingIgnoresOldList(st: Orchestrator, c: Collaborators, ref: Reference, previous: Option<seq<EnsembleData>>)
    requires ValidateReference(st.calcFacet.Some?, ref, st.numFacets).None?
    ensures CalculateFacetPointing(st.(calcEnsemble := previous), c, ref) == CalculateFacetPointing(st, c, ref)
  {
  }
}

=== FILE: frames.dfy ===
/**
 * Frame bookkeeping of the fixed-pattern orchestrator: where the camera and
 * the screen sit as seen from an optic (single facet) or from one facet of an
 * ensemble, and how screen points and camera rays are carried into that frame.
 * Naming follows the source: `rXY` rotates X-frame vectors into the Y frame,
 * `vXYZ` is the vector from X to Y written in frame Z.
 */
module Frames {
  import opened Linear

  /** `SpatialOrientation`: the fixed camera/screen relation. */
  datatype Orientation = Orientation(rCamScreen: Mat3, vCamScreenCam: Vec3)

  /** Pose of an optic (or facet) seen from the camera: rotation optic->camera and the camera->optic vector in camera coordinates. */
  datatype CameraPose = CameraPose(rOpticCam: Mat3, vCamOpticCam: Vec3)

  /** Poses of camera and screen expressed in the optic frame. */
  datatype OpticFrame = OpticFrame(
    rotCamOptic: Mat3,
    rotScreenOptic: Mat3,
    vOpticCamOptic: Vec3,
    vOpticScreenOptic: Vec3)

  /** `TransformXYZ`: a rotation followed by a translation. */
  datatype Transform = Transform(R: Mat3, V: Vec3)

  function FromR(r: Mat3): Transform {
    Transform(r, Zero)
  }

  function FromV(v: Vec3): Transform {
    Transform(Identity, v)
  }

  /** Camera coordinates of a point given in the optic frame. */
  function OpticToCamera(p: CameraPose, x: Vec3): Vec3 {
    Add(p.vCamOpticCam, Apply(p.rOpticCam, x))
  }

  /** Camera coordinates of a point given in the screen frame. */
  function ScreenToCamera(o: Orientation, s: Vec3): Vec3 {
    Add(o.vCamScreenCam, Apply(Inv(o.rCamScreen), s))
  }

  /**
   * The screen and camera poses in the optic frame, as computed for one
   * optic or facet (ProcessSofastFixed.py lines 174-180 and 247-253). The
   * optic->screen offset is the camera-frame displacement from optic to
   * screen origin turned into the optic frame; read back in camera
   * coordinates it lands on the camera and on the screen origin.
   */
  function FrameOf(o: Orientation, p: CameraPose): (f: OpticFrame)
    ensures f.vOpticScreenOptic == Apply(Inv(p.rOpticCam), Sub(o.vCamScreenCam, p.vCamOpticCam))
    ensures f.rotScreenOptic == Mul(f.rotCamOptic, Inv(o.rCamScreen))
    ensures Orthonormal(p.rOpticCam) ==> OpticToCamera(p, f.vOpticCamOptic) == Zero
    ensures Orthonormal(p.rOpticCam) ==> OpticToCamera(p, f.vOpticScreenOptic) == o.vCamScreenCam
  {
    var rotCamOptic := Inv(p.rOpticCam);
    var rotOpticScreen := Mul(o.rCamScreen, p.rOpticCam);
    var rotScreenOptic := Inv(rotOpticScreen);
    var vOpticCamOptic := Neg(Apply(rotCamOptic, p.vCamOpticCam));
    var vCamScreenOptic := Apply(rotCamOptic, o.vCamScreenCam);
    ApplyLinear(rotCamOptic, o.vCamScreenCam, p.vCamOpticCam);
    InvMul(o.rCamScreen, p.rOpticCam);
    CameraAndScreenSeenFromOptic(o, p);
    OpticFrame(rotCamOptic, rotScreenOptic, vOpticCamOptic, Add(vOpticCamOptic, vCamScreenOptic))
  }

  lemma CameraAndScreenSeenFromOptic(o: Orientation, p: CameraPose)
    ensures Orthonormal(p.rOpticCam) ==>
      OpticToCamera(p, Neg(Apply(Inv(p.rOpticCam), p.vCamOpticCam))) == Zero
    ensures Orthonormal(p.rOpticCam) ==>
      OpticToCamera(p, Apply(Inv(p.rOpticCam), Sub(o.vCamScreenCam, p.vCamOpticCam))) == o.vCamScreenCam
  {
    if Orthonormal(p.rOpticCam) {
      var ri := Inv(p.rOpticCam);
      ApplyLinear(p.rOpticCam, Apply(ri, p.vCamOpticCam), Zero);
      InvUndoes(p.rOpticCam, p.vCamOpticCam);
      InvUndoes(p.rOpticCam, Sub(o.vCamScreenCam, p.vCamOpticCam));
    }
  }

  /**
   * Pose of facet `i` seen from the camera, given the ensemble pose and the
   * facet's placement in the ensemble (lines 235-242): the facet rotation
   * composes the ensemble rotation after the facet's own, and the facet
   * origin sits at its ensemble location.
   */
  function FacetCameraPose(ensemble: CameraPose, rFacetEnsemble: Mat3, vFacetEnsemble: Vec3): (f: CameraPose)
    ensures forall x :: OpticToCamera(f, x) == OpticToCamera(ensemble, Add(vFacetEnsemble, Apply(rFacetEnsemble, x)))
  {
    var f := CameraPose(
      Mul(ensemble.rOpticCam, rFacetEnsemble),
      Add(ensemble.vCamOpticCam, Apply(ensemble.rOpticCam, vFacetEnsemble)));
    FacetPointsThroughEnsemble(ensemble, rFacetEnsemble, vFacetEnsemble, f);
    f
  }

  lemma FacetPointsThroughEnsemble(ensemble: CameraPose, rFacetEnsemble: Mat3, vFacetEnsemble: Vec3, f: CameraPose)
    requires f.rOpticCam == Mul(ensemble.rOpticCam, rFacetEnsemble)
    requires f.vCamOpticCam == Add(ensemble.vCamOpticCam, Apply(ensemble.rOpticCam, vFacetEnsemble))
    ensures forall x :: OpticToCamera(f, x) == OpticToCamera(ensemble, Add(vFacetEnsemble, Apply(rFacetEnsemble, x)))
  {
    forall x
      ensures OpticToCamera(f, x) == OpticToCamera(ensemble, Add(vFacetEnsemble, Apply(rFacetEnsemble, x)))
    {
      ApplyMul(ensemble.rOpticCam, rFacetEnsemble, x);
      ApplyLinear(ensemble.rOpticCam, vFacetEnsemble, Apply(rFacetEnsemble, x));
    }
  }

  /**
   * A facet placed at the ensemble origin with no rotation has exactly the
   * ensemble's pose, so the multi-facet frames reduce to the single-facet ones.
   */
  lemma {:induction false} MultiFacetReducesToSingle(o: Orientation, ensemble: CameraPose)
    ensures FacetCameraPose(ensemble, Identity, Zero) == ensemble
    ensures FrameOf(o, FacetCameraPose(ensemble, Identity, Zero)) == FrameOf(o, ensemble)
  {
    MulIdentity(ensemble.rOpticCam);
    ApplyZero(ensemble.rOpticCam);
  }

  /**
   * Screen points of the dot pattern carried into the optic frame (lines
   * 183-184 and 256-257). Each lands, in camera coordinates, where the
   * screen calibration puts it.
   */
  function ScreenPointsInOptic(o: Orientation, p: CameraPose, pts: seq<Vec3>): (q: seq<Vec3>)
    ensures |q| == |pts|
    ensures Orthonormal(p.rOpticCam) ==>
      forall i :: 0 <= i < |pts| ==> OpticToCamera(p, q[i]) == ScreenToCamera(o, pts[i])
  {
    var f := FrameOf(o, p);
    ScreenPointsLand(o, p, pts);
    seq(|pts|, i requires 0 <= i < |pts| => Add(f.vOpticScreenOptic, Apply(f.rotScreenOptic, pts[i])))
  }

  /** Every screen point carried into the optic frame is the same physical point seen from the optic. */
  lemma ScreenPointsLand(o: Orientation, p: CameraPose, pts: seq<Vec3>)
    ensures Orthonormal(p.rOpticCam) ==>
      forall i :: 0 <= i < |pts| ==>
        OpticToCamera(p, Add(FrameOf(o, p).vOpticScreenOptic, Apply(FrameOf(o, p).rotScreenOptic, pts[i])))
          == ScreenToCamera(o, pts[i])
  {
    if Orthonormal(p.rOpticCam) {
      var f := FrameOf(o, p);
      forall i | 0 <= i < |pts|
        ensures OpticToCamera(p, Add(f.vOpticScreenOptic, Apply(f.rotScreenOptic, pts[i]))) == ScreenToCamera(o, pts[i])
      {
        ScreenPointLands(o, p, f, pts[i]);
      }
    }
  }

  lemma ScreenPointLands(o: Orientation, p: CameraPose, f: OpticFrame, s: Vec3)
    requires Orthonormal(p.rOpticCam)
    requires f == FrameOf(o, p)
    ensures OpticToCamera(p, Add(f.vOpticScreenOptic, Apply(f.rotScreenOptic, s))) == ScreenToCamera(o, s)
  {
    var r := p.rOpticCam;
    var t := Apply(Inv(o.rCamScreen), s);
    ApplyMul(Inv(r), Inv(o.rCamScreen), s);
    ApplyLinear(r, f.vOpticScreenOptic, Apply(Inv(r), t));
    InvUndoes(r, t);
  }

  /**
   * Camera rays of the active pixels carried into the optic frame (lines
   * 187-188 and 260-261): rotating each back into the camera frame gives
   * the original ray.
   */
  function RaysInOptic(p: CameraPose, rays: seq<Vec3>): (q: seq<Vec3>)
    ensures |q| == |rays|
    ensures Orthonormal(p.rOpticCam) ==> forall i :: 0 <= i < |rays| ==> Apply(p.rOpticCam, q[i]) == rays[i]
  {
    RaysReturn(p.rOpticCam, rays);
    seq(|rays|, i requires 0 <= i < |rays| => Apply(Inv(p.rOpticCam), rays[i]))
  }

  /** Rotating rays by the inverse of an orthonormal matrix and back gives the rays. */
  lemma RaysReturn(r: Mat3, rays: seq<Vec3>)
    ensures Orthonormal(r) ==> forall i :: 0 <= i < |rays| ==> Apply(r, Apply(Inv(r), rays[i])) == rays[i]
  {
    forall i | 0 <= i < |rays|
      ensures Orthonormal(r) ==> Apply(r, Apply(Inv(r), rays[i])) == rays[i]
    {
      InvUndoes(r, rays[i]);
    }
  }
}

=== FILE: linear.dfy ===
/**
 * Exact real 3-vectors and 3x3 matrices: the part of `Vxyz`, `Vxy` and
 * scipy's `Rotation` that the orchestrator's frame bookkeeping relies on.
 * A rotation is a matrix; `v.rotate(R)` is the product R·v, `A * B` on
 * rotations is the matrix product (B applied first) and `R.inv()` is the
 * transpose, which undoes R whenever R is orthonormal.
 */
module Linear {

  datatype Vec2 = Vec2(x: real, y: real)

  datatype Vec3 = Vec3(x: real, y: real, z: real)

  /** A 3x3 matrix stored by rows. */
  datatype Mat3 = Mat3(r0: Vec3, r1: Vec3, r2: Vec3)

  const Zero: Vec3 := Vec3(0.0, 0.0, 0.0)

  /** The boresight (0, 0, 1) of a facet in its own frame. */
  const UnitZ: Vec3 := Vec3(0.0, 0.0, 1.0)

  const Identity: Mat3 := Mat3(Vec3(1.0, 0.0, 0.0), Vec3(0.0, 1.0, 0.0), Vec3(0.0, 0.0, 1.0))

  function Add(a: Vec3, b: Vec3): Vec3 {
    Vec3(a.x + b.x, a.y + b.y, a.z + b.z)
  }

  function Neg(a: Vec3): Vec3 {
    Vec3(-a.x, -a.y, -a.z)
  }

  function Sub(a: Vec3, b: Vec3): Vec3 {
    Vec3(a.x - b.x, a.y - b.y, a.z - b.z)
  }

  function Scale(k: real, a: Vec3): Vec3 {
    Vec3(k * a.x, k * a.y, k * a.z)
  }

  function Dot(a: Vec3, b: Vec3): real {
    a.x * b.x + a.y * b.y + a.z * b.z
  }

  /** The product m·v: the source's `v.rotate(m)`. */
  function Apply(m: Mat3, v: Vec3): Vec3 {
    Vec3(Dot(m.r0, v), Dot(m.r1, v), Dot(m.r2, v))
  }

  function Column(m: Mat3, j: int): Vec3
    requires 0 <= j < 3
  {
    if j == 0 then Vec3(m.r0.x, m.r1.x, m.r2.x)
    else if j == 1 then Vec3(m.r0.y, m.r1.y, m.r2.y)
    else Vec3(m.r0.z, m.r1.z, m.r2.z)
  }

  function Transpose(m: Mat3): Mat3 {
    Mat3(Column(m, 0), Column(m, 1), Column(m, 2))
  }

  /** The product a·b: the rotation that applies b first and then a (`a * b`). */
  function Mul(a: Mat3, b: Mat3): Mat3 {
    var bt := Transpose(b);
    Mat3(Apply(bt, a.r0), Apply(bt, a.r1), Apply(bt, a.r2))
  }

  /** Rows and columns orthonormal: what every rotation matrix satisfies. */
  predicate Orthonormal(m: Mat3) {
    Mul(m, Transpose(m)) == Identity && Mul(Transpose(m), m) == Identity
  }

  /** The inverse of a rotation (`R.inv()`). */
  function Inv(m: Mat3): (r: Mat3)
    ensures Orthonormal(m) ==> Orthonormal(r) && Mul(m, r) == Identity && Mul(r, m) == Identity
    ensures Transpose(r) == m
  {
    Transpose(m)
  }

  lemma ApplyMul(a: Mat3, b: Mat3, v: Vec3)
    ensures Apply(Mul(a, b), v) == Apply(a, Apply(b, v))
  {
  }

  lemma ApplyIdentity(v: Vec3)
    ensures Apply(Identity, v) == v
  {
  }

  lemma ApplyLinear(m: Mat3, a: Vec3, b: Vec3)
    ensures Apply(m, Add(a, b)) == Add(Apply(m, a), Apply(m, b))
    ensures Apply(m, Sub(a, b)) == Sub(Apply(m, a), Apply(m, b))
    ensures Apply(m, Neg(a)) == Neg(Apply(m, a))
  {
  }

  lemma ApplyScale(m: Mat3, k: real, v: Vec3)
    ensures Apply(m, Scale(k, v)) == Scale(k, Apply(m, v))
  {
  }

  lemma ApplyZero(m: Mat3)
    ensures Apply(m, Zero) == Zero
  {
  }

  /** The third column of a matrix is the image of the boresight. */
  lemma ApplyUnitZ(m: Mat3)
    ensures Apply(m, UnitZ) == Column(m, 2)
  {
  }

  lemma MulIdentity(m: Mat3)
    ensures Mul(m, Identity) == m
    ensures Mul(Identity, m) == m
  {
  }

  /** Inverting a composition reverses the order of the inverses. */
  lemma InvMul(a: Mat3, b: Mat3)
    ensures Inv(Mul(a, b)) == Mul(Inv(b), Inv(a))
  {
  }

  /** An orthonormal matrix and its inverse undo each other on every vector. */
  lemma InvUndoes(m: Mat3, v: Vec3)
    ensures Orthonormal(m) ==> Apply(m, Apply(Inv(m), v)) == v && Apply(Inv(m), Apply(m, v)) == v
  {
    if Orthonormal(m) {
      ApplyMul(m, Inv(m), v);
      ApplyMul(Inv(m), m, v);
      ApplyIdentity(v);
    }
  }
}

=== FILE: normals.dfy ===
/**
 * The slope <-> surface-normal sign convention of the orchestrator. A slope
 * (sx, sy) = (dz/dx, dz/dy) has the upward normal (-sx, -sy, 1); a normal n
 * with n.z != 0 reads back as the slope -(n.x, n.y) / n.z. The source
 * normalises normals to unit length in between; that normalisation is a
 * positive scale factor, and the conversion back does not see it.
 */
module SlopeNormals {
  import opened Linear
  import opened Results

  /** Normal of a surface with slope `s`, before normalisation. */
  function NormalOf(s: Vec2): (n: Vec3)
    ensures n.z == 1.0
    ensures Dot(n, Vec3(1.0, 0.0, s.x)) == 0.0 && Dot(n, Vec3(0.0, 1.0, s.y)) == 0.0
  {
    Vec3(-s.x, -s.y, 1.0)
  }

  /**
   * Slope read from a normal vector (lines 454 and the normals of 479-482
   * read backwards). A normal lying in the xy-plane has no finite slope:
   * numpy would produce inf/nan there, the model produces None.
   */
  function SlopeOf(n: Vec3): (r: Option<Vec2>)
    ensures r.Some? <==> n.z != 0.0
    ensures r.Some? ==> Scale(n.z, NormalOf(r.value)) == n
  {
    if n.z == 0.0 then None else Some(Vec2(-n.x / n.z, -n.y / n.z))
  }

  /** Any positive multiple of a slope's normal reads back as that slope. */
  lemma SlopeNormalRoundTrip(s: Vec2, k: real)
    requires k > 0.0
    ensures SlopeOf(Scale(k, NormalOf(s))) == Some(s)
  {
    var n := Scale(k, NormalOf(s));
    assert -n.x / n.z == s.x by {
      assert n.x == -(k * s.x);
    }
    assert -n.y / n.z == s.y by {
      assert n.y == -(k * s.y);
    }
  }

  /** Reading a slope ignores any non-zero scaling of the normal, however it was rotated. */
  lemma SlopeIgnoresScale(m: Mat3, n: Vec3, k: real)
    requires k != 0.0
    ensures SlopeOf(Apply(m, Scale(k, n))) == SlopeOf(Apply(m, n))
  {
    ApplyScale(m, k, n);
    SlopeOfScaled(Apply(m, n), k);
  }

  lemma SlopeOfScaled(a: Vec3, k: real)
    requires k != 0.0
    ensures SlopeOf(Scale(k, a)) == SlopeOf(a)
  {
    var b := Scale(k, a);
    if a.z != 0.0 {
      var qx, qy := -a.x / a.z, -a.y / a.z;
      assert -a.x == qx * a.z && -a.y == qy * a.z;
      assert -b.x == qx * b.z by {
        assert -b.x == k * -a.x;
      }
      assert -b.y == qy * b.z by {
        assert -b.y == k * -a.y;
      }
      DivUnique(-b.x, b.z, qx);
      DivUnique(-b.y, b.z, qy);
    }
  }

  lemma DivUnique(x: real, z: real, q: real)
    requires z != 0.0 && x == q * z
    ensures x / z == q
  {
  }
}

=== FILE: optic.dfy ===
/**
 * `get_optic`: the solved facets as mirror objects, a single facet in
 * single-facet mode and an ensemble with one transform per facet in
 * multi-facet mode.
 */
module OpticOutput {
  import opened Linear
  import opened Results
  import opened Errors
  import opened Frames
  import opened SlopeNormals
  import opened SofastData

  datatype Interpolation = Given | Bilinear | CloughTocher | Nearest

  /** `MirrorPoint`: surface points with their unit normals, the facet outline and the interpolation kind. */
  datatype MirrorPoint = MirrorPoint(
    surfacePoints: seq<Vec3>,
    normals: seq<Vec3>,
    shape: seq<Vec2>,
    interpolation: Interpolation)

  /** A `Facet`, or a `FacetEnsemble` with its facet transforms. */
  datatype Optic = FacetOptic(mirror: MirrorPoint) | EnsembleOptic(facets: seq<MirrorPoint>, transforms: seq<Transform>)

  /** One facet of the result and, in multi-facet mode, its ensemble transform. */
  datatype FacetOut = FacetOut(mirror: MirrorPoint, transform: Option<Transform>)

  /** The facets and transforms collected so far by the loop of lines 475-492. */
  datatype FacetList = FacetList(mirrors: seq<MirrorPoint>, transforms: seq<Transform>)

  /** `projXY` (line 484): each point with its z dropped. */
  function ProjXY(pts: seq<Vec3>): (r: seq<Vec2>)
    ensures |r| == |pts|
    ensures forall i :: 0 <= i < |pts| ==> r[i].x == pts[i].x && r[i].y == pts[i].y
  {
    seq(|pts|, i requires 0 <= i < |pts| => Vec2(pts[i].x, pts[i].y))
  }

  /**
   * Whether a 2xM slope array fits into the 2xN normal array of N points
   * (line 480): the shapes agree, or a single slope is broadcast to all points.
   */
  predicate SlopesFit(slopes: seq<Vec2>, numPoints: nat) {
    |slopes| == numPoints || |slopes| == 1
  }

  /** The slope that lands on point `k` under numpy broadcasting. */
  function SlopeAt(slopes: seq<Vec2>, k: nat): (s: Vec2)
    requires |slopes| == 1 || k < |slopes|
    ensures |slopes| == 1 ==> s == slopes[0]
    ensures k < |slopes| ==> s == slopes[k]
  {
    if |slopes| == 1 then slopes[0] else slopes[k]
  }

  /** Whether facet `j` of the instance can be turned into a mirror without raising. */
  predicate FacetReady(st: Orchestrator, j: nat) {
    && st.calcFacet.Some?
    && j < |st.calcFacet.value|
    && SlopesFit(st.calcFacet.value[j].slopesFacetXY, |st.calcFacet.value[j].vSurfPointsFacet|)
    && j < |st.facetDefs|
    && (st.opticType == Multi ==> st.calcEnsemble.Some? && j < |st.calcEnsemble.value|)
  }

  /**
   * Unit normals of a facet from its slopes (lines 479-482): the normal of
   * point k is a positive multiple of (-sx, -sy, 1), so it reads back as the
   * facet's slope at k.
   */
  function NormalsOf(c: Collaborators, slopes: seq<Vec2>, numPoints: nat): (ns: seq<Vec3>)
    requires SlopesFit(slopes, numPoints)
    ensures |ns| == numPoints
    ensures forall k :: 0 <= k < numPoints ==> ns[k].z > 0.0 && SlopeOf(ns[k]) == Some(SlopeAt(slopes, k))
  {
    seq(numPoints, k requires 0 <= k < numPoints => UnitNormal(c, SlopeAt(slopes, k)))
  }

  function UnitNormal(c: Collaborators, s: Vec2): (n: Vec3)
    ensures n.z > 0.0 && SlopeOf(n) == Some(s)
  {
    var k := c.unitScale(NormalOf(s));
    SlopeNormalRoundTrip(s, k);
    Scale(k, NormalOf(s))
  }

  /**
   * Loop body of lines 476-492 for facet `j`: the facet's solved surface
   * points with normals in the slope convention, its corners projected to
   * xy as outline, and in multi-facet mode its ensemble transform. The reads
   * raise in source order: missing slope data, a short slope list, a shape
   * clash, a short facet list, then (line 491) an ensemble list never set
   * or too short.
   */
  function FacetEntry(c: Collaborators, st: Orchestrator, interp: Interpolation, j: nat): (r: Result<FacetOut, Error>)
    ensures r.Ok? <==> FacetReady(st, j)
    ensures r.Ok? ==>
      var d := st.calcFacet.value[j];
      && r.value.mirror.surfacePoints == d.vSurfPointsFacet
      && |r.value.mirror.normals| == |d.vSurfPointsFacet|
      && (forall k :: 0 <= k < |d.vSurfPointsFacet| ==>
            r.value.mirror.normals[k].z > 0.0 && SlopeOf(r.value.mirror.normals[k]) == Some(SlopeAt(d.slopesFacetXY, k)))
      && r.value.mirror.shape == ProjXY(st.facetDefs[j].vFacetCorners)
      && r.value.mirror.interpolation == interp
      && (st.opticType == Multi <==> r.value.transform.Some?)
      && (st.opticType == Multi ==> r.value.transform.value == st.calcEnsemble.value[j].transFacetEnsemble)
  {
    if st.calcFacet.None? then Err(MissingAttribute)
    else if j >= |st.calcFacet.value| then Err(IndexOutOfRange)
    else
      var d := st.calcFacet.value[j];
      var numPoints := |d.vSurfPointsFacet|;
      if !SlopesFit(d.slopesFacetXY, numPoints) then Err(ShapeMismatch)
      else if j >= |st.facetDefs| then Err(IndexOutOfRange)
      else if st.opticType == Multi && st.calcEnsemble.None? then Err(MissingAttribute)
      else if st.opticType == Multi && j >= |st.calcEnsemble.value| then Err(IndexOutOfRange)
      else
        var mirror := MirrorPoint(d.vSurfPointsFacet, NormalsOf(c, d.slopesFacetXY, numPoints),
                                  ProjXY(st.facetDefs[j].vFacetCorners), interp);
        var trans := if st.opticType == Multi then Some(st.calcEnsemble.value[j].transFacetEnsemble) else None;
        Ok(FacetOut(mirror, trans))
  }

  /**
   * Facets `j` up to `n` in order; the first one that cannot be built
   * decides the exception.
   */
  function FacetsFrom(c: Collaborators, st: Orchestrator, interp: Interpolation, j: nat, n: nat)
    : (r: Result<FacetList, Error>)
    requires j <= n
    ensures r.Ok? <==> forall k :: j <= k < n ==> FacetReady(st, k)
    ensures r.Ok? ==> |r.value.mirrors| == n - j
    ensures r.Ok? ==> forall k :: j <= k < n ==> r.value.mirrors[k - j] == FacetEntry(c, st, interp, k).value.mirror
    ensures r.Ok? && st.opticType == Multi ==>
      && |r.value.transforms| == n - j
      && forall k :: j <= k < n ==>
           FacetReady(st, k) && r.value.transforms[k - j] == st.calcEnsemble.value[k].transFacetEnsemble
    ensures r.Ok? && st.opticType != Multi ==> r.value.transforms == []
    decreases n - j
  {
    if j == n then Ok(FacetList([], []))
    else
      match FacetEntry(c, st, interp, j)
      case Err(e) => Err(e)
      case Ok(f) =>
        match FacetsFrom(c, st, interp, j + 1, n)
        case Err(e) => Err(e)
        case Ok(rest) =>
          var ts := if f.transform.Some? then [f.transform.value] + rest.transforms else rest.transforms;
          Ok(FacetList([f.mirror] + rest.mirrors, ts))
  }

  /**
   * `get_optic` (lines 469-500). In multi-facet mode the result is an
   * ensemble of `num_facets` mirrors with `num_facets` transforms; otherwise
   * it is the first facet (an `IndexError` if there is none). Every normal
   * points upward and follows the slope convention of the facet's solved slopes.
   */
  function GetOptic(c: Collaborators, st: Orchestrator, interp: Interpolation): (r: Result<Optic, Error>)
    ensures r.Ok? <==>
      && st.numFacets.Some?
      && (forall k :: 0 <= k < st.numFacets.value ==> FacetReady(st, k))
      && (st.opticType == Multi || st.numFacets.value >= 1)
    ensures r.Ok? ==> (r.value.EnsembleOptic? <==> st.opticType == Multi)
    ensures r.Ok? && st.opticType == Multi ==>
      && |r.value.facets| == st.numFacets.value
      && |r.value.transforms| == st.numFacets.value
      && forall k :: 0 <= k < st.numFacets.value ==>
           && FacetReady(st, k)
           && r.value.transforms[k] == st.calcEnsemble.value[k].transFacetEnsemble
           && r.value.facets[k].surfacePoints == st.calcFacet.value[k].vSurfPointsFacet
           && FacetEntry(c, st, interp, k).Ok?
           && r.value.facets[k] == FacetEntry(c, st, interp, k).value.mirror
    ensures r.Ok? && st.opticType != Multi ==>
      FacetReady(st, 0) &&
      FacetEntry(c, st, interp, 0).Ok? &&
      r.value.mirror == FacetEntry(c, st, interp, 0).value.mirror &&
      var d := st.calcFacet.value[0];
      && r.value.mirror.surfacePoints == d.vSurfPointsFacet
      && |r.value.mirror.normals| == |d.vSurfPointsFacet|
      && forall k :: 0 <= k < |d.vSurfPointsFacet| ==>
           r.value.mirror.normals[k].z > 0.0 && SlopeOf(r.value.mirror.normals[k]) == Some(SlopeAt(d.slopesFacetXY, k))
  {
    match st.numFacets
    case None => Err(MissingAttribute)
    case Some(n) =>
      match FacetsFrom(c, st, interp, 0, n)
      case Err(e) => Err(e)
      case Ok(fl) =>
        assert forall k :: 0 <= k < n ==>
          FacetEntry(c, st, interp, k).Ok? && fl.mirrors[k] == FacetEntry(c, st, interp, k).value.mirror;
        if st.opticType == Multi then Ok(EnsembleOptic(fl.mirrors, fl.transforms))
        else if |fl.mirrors| == 0 then Err(IndexOutOfRange)
        else Ok(FacetOptic(fl.mirrors[0]))
  }
}

=== FILE: pointing.dfy ===
/**
 * Facet pointing in an ensemble: validation of the pointing reference, the
 * pointing vector of each facet, and the choice of the reference pointing
 * (one facet's, or the mean of all of them).
 */
module Pointing {
  import opened Linear
  import opened Results
  import opened Errors

  /**
   * The `reference` argument: the string `'average'`, an int facet index, or
   * any other Python value.
   */
  datatype Reference = Average | Index(i: int) | Invalid

  /**
   * Input checks of the pointing step (ProcessSofastFixed.py lines 400-407):
   * slopes must be solved, the reference must be `'average'` or an int, and
   * an int must be below the facet count. Negative ints pass. An int compared
   * with an unset facet count raises a `TypeError`.
   */
  function ValidateReference(solved: bool, ref: Reference, numFacets: Option<nat>): (r: Option<Error>)
    ensures r.None? <==> solved && (ref.Average? || (ref.Index? && numFacets.Some? && ref.i < numFacets.value))
    ensures !solved ==> r == Some(SlopesNotSolved)
    ensures solved && ref.Invalid? ==> r == Some(BadReference)
    ensures solved && ref.Index? && numFacets.Some? && ref.i >= numFacets.value ==>
      r == Some(ReferenceOutOfRange(ref.i, numFacets.value))
  {
    if !solved then Some(SlopesNotSolved)
    else if ref.Invalid? then Some(BadReference)
    else if ref.Index? && numFacets.None? then Some(MissingAttribute)
    else if ref.Index? && ref.i >= numFacets.value then Some(ReferenceOutOfRange(ref.i, numFacets.value))
    else None
  }

  /** Pointing of a facet with rotation `r`: the boresight (0, 0, 1) rotated, i.e. the third column of `r`. */
  function PointingOf(r: Mat3): (v: Vec3)
    ensures v == Column(r, 2)
  {
    ApplyUnitZ(r);
    Apply(r, UnitZ)
  }

  function Sum(vs: seq<Vec3>): Vec3 {
    if |vs| == 0 then Zero else Add(Sum(vs[..|vs| - 1]), vs[|vs| - 1])
  }

  /** Component-wise mean of a non-empty list of vectors (`mean(1)` over the pointing matrix). */
  function Mean(vs: seq<Vec3>): (m: Vec3)
    requires |vs| > 0
    ensures Scale(|vs| as real, m) == Sum(vs)
  {
    var n := |vs| as real;
    var s := Sum(vs);
    assert n * (1.0 / n) == 1.0;
    assert Scale(n, Scale(1.0 / n, s)) == s by {
      assert n * ((1.0 / n) * s.x) == (n * (1.0 / n)) * s.x;
      assert n * ((1.0 / n) * s.y) == (n * (1.0 / n)) * s.y;
      assert n * ((1.0 / n) * s.z) == (n * (1.0 / n)) * s.z;
    }
    Scale(1.0 / n, s)
  }

  /**
   * Reference pointing (lines 430-433). An int selects that facet's column
   * with numpy's indexing, so -n..-1 count from the end and anything below
   * raises `IndexError`. `'average'` takes the mean of all columns; with no
   * facets that mean is NaN in numpy and is `None` here.
   */
  function ReferencePointing(cols: seq<Vec3>, ref: Reference): (r: Result<Option<Vec3>, Error>)
    ensures ref.Index? && 0 <= ref.i < |cols| ==> r == Ok(Some(cols[ref.i]))
    ensures ref.Index? && -|cols| <= ref.i < 0 ==> r == Ok(Some(cols[|cols| + ref.i]))
    ensures ref.Index? && (ref.i < -|cols| || |cols| <= ref.i) ==> r == Err(IndexOutOfRange)
    ensures ref.Average? ==> r.Ok? && (r.value.Some? <==> |cols| > 0)
    ensures ref.Average? && |cols| > 0 ==> Scale(|cols| as real, r.value.value) == Sum(cols)
    ensures ref.Invalid? ==> r == Err(BadReference)
  {
    match ref
    case Index(i) =>
      if 0 <= i < |cols| then Ok(Some(cols[i]))
      else if -|cols| <= i < 0 then Ok(Some(cols[|cols| + i]))
      else Err(IndexOutOfRange)
    case Average =>
      if |cols| == 0 then Ok(None) else Ok(Some(Mean(cols)))
    case Invalid =>
      Err(BadReference)
  }

  lemma {:induction false} SumOfCopies(vs: seq<Vec3>, c: Vec3)
    requires forall i :: 0 <= i < |vs| ==> vs[i] == c
    ensures Sum(vs) == Scale(|vs| as real, c)
  {
    if |vs| > 0 {
      SumOfCopies(vs[..|vs| - 1], c);
    }
  }

  /**
   * When every facet points the same way, `'average'` and any in-range index
   * select the same reference pointing.
   */
  lemma AverageAgreesWithIndexWhenAligned(cols: seq<Vec3>, c: Vec3, i: int)
    requires forall k :: 0 <= k < |cols| ==> cols[k] == c
    requires 0 <= i < |cols|
    ensures ReferencePointing(cols, Average) == ReferencePointing(cols, Index(i)) == Ok(Some(c))
  {
    SumOfCopies(cols, c);
    var n := |cols| as real;
    var m := Mean(cols);
    assert Scale(n, m) == Scale(n, c);
    assert n * m.x == n * c.x && n * m.y == n * c.y && n * m.z == n * c.z;
  }

  /**
   * Two facets tilted by opposite amounts about the boresight average to a
   * reference on the boresight.
   */
  lemma MirroredPairAveragesToBoresight(a: Vec3)
    ensures ReferencePointing([a, Vec3(-a.x, -a.y, a.z)], Average) == Ok(Some(Vec3(0.0, 0.0, a.z)))
  {
    var cols := [a, Vec3(-a.x, -a.y, a.z)];
    assert cols[..1] == [a] && [a][..0] == [];
    assert Sum([a]) == Add(Zero, a);
    assert Sum(cols) == Add(Sum([a]), cols[1]);
    assert Sum(cols) == Vec3(0.0, 0.0, 2.0 * a.z);
  }
}

=== FILE: process.dfy ===
/**
 * The two processing entry points of `ProcessSofastFixed` and the calls that
 * set up an instance. Each entry point checks its inputs, records the optic
 * type and per-facet definitions, then runs blob indexing, the mask, the
 * geometry, the slope solver (and, for an ensemble, facet pointing).
 */
module Process {
  import opened Linear
  import opened Results
  import opened Errors
  import opened Frames
  import opened Pointing
  import opened SofastData
  import opened SolverInputs
  import opened FacetPointing

  /** A fresh instance (`__init__`, ProcessSofastFixed.py lines 39-88): nothing processed yet. */
  function Init(orientation: Orientation, camera: Camera, dots: DotLocations, params: Params): (st: Orchestrator)
    ensures st.opticType == Undefined && st.numFacets.None? && st.measurement.None?
    ensures st.calcFacet.None? && st.calcEnsemble.None? && st.slopeSolvers == []
    ensures st.orientation == orientation && st.params == params
    ensures st.camera == camera && st.dotLocations == dots
    ensures st.facetDefs == [] && st.surfaces == [] && st.ensembleDef.None?
    ensures st.blobIndex.None? && st.geometry.None?
  {
    Orchestrator(orientation, camera, dots, params, None, None, Undefined, [], None, [], None, None, [], None, None)
  }

  /** `load_measurement_data` (lines 136-144): the measurement is replaced, nothing else changes. */
  function LoadMeasurement(st: Orchestrator, m: Measurement): (r: Orchestrator)
    ensures r.measurement == Some(m)
    ensures r.(measurement := st.measurement) == st
  {
    st.(measurement := Some(m))
  }

  /**
   * The multi-facet input check as written at line 353: the Python chain
   * `a != b != c != d`, which means `a != b and b != c and c != d`.
   */
  function ChainedNe(a: nat, b: nat, c: nat, d: nat): (r: bool)
    ensures r ==> !(a == b == c == d)
    ensures !r <==> a == b || b == c || c == d
  {
    a != b && b != c && c != d
  }

  /**
   * The chained check rejects only when every neighbouring pair of lengths
   * differs: it lets through lists that disagree in length, such as 3 facet
   * definitions with 2 surfaces, 2 known points and 2 known indices.
   */
  lemma ChainedCheckAdmitsMismatches()
    ensures !ChainedNe(3, 2, 2, 2) && !ChainedNe(3, 2, 3, 3) && !ChainedNe(2, 3, 3, 3) && !ChainedNe(1, 1, 2, 3)
    ensures ChainedNe(3, 2, 3, 2)
    ensures forall n: nat :: !ChainedNe(n, n, n, n)
  {
  }

  /** The per-run attributes a processing call sets; everything else belongs to the instance's setup. */
  ghost predicate SameSetup(a: Orchestrator, b: Orchestrator) {
    && a.orientation == b.orientation
    && a.camera == b.camera
    && a.dotLocations == b.dotLocations
    && a.params == b.params
    && a.measurement == b.measurement
  }

  /**
   * `process_single_facet_optic` (lines 282-324). Exactly one known point is
   * accepted; anything else raises before the instance is touched. The run
   * then records a single facet, indexes blobs from the one seed, builds the
   * mask (the "keep largest area" option is left as it is), solves the
   * geometry and the slopes, and replaces the solver and slope lists with
   * one-element lists. The ensemble list of an earlier multi-facet run is
   * not touched.
   */
  function ProcessSingleFacet(st: Orchestrator, c: Collaborators, facetDef: FacetDef, surface: Surface,
                              ptKnown: seq<Vec2>, xyKnown: DotIndex): (r: Outcome)
    ensures |ptKnown| != 1 <==> r.error == Some(KnownPointCount(|ptKnown|))
    ensures |ptKnown| != 1 ==> r.state == st
    ensures |ptKnown| == 1 && st.measurement.None? ==> r.error == Some(MissingAttribute)
    ensures |ptKnown| == 1 && st.measurement.Some? ==>
      r.state.geometry.Some? && (r.error.None? <==> |r.state.geometry.value.facets| > 0)
    ensures r.error.Some? ==> r.state.slopeSolvers == st.slopeSolvers && r.state.calcFacet == st.calcFacet
    ensures |ptKnown| == 1 ==>
      && r.state.opticType == Single
      && r.state.numFacets == Some(1)
      && r.state.facetDefs == [facetDef]
      && r.state.surfaces == [surface]
    ensures r.error.None? ==>
      && r.state.blobIndex.Some?
      && r.state.blobIndex.value.seeds == [Seed(ptKnown[0], xyKnown.ix, xyKnown.iy)]
      && |r.state.slopeSolvers| == 1
      && r.state.slopeSolvers[0].surface == surface
      && r.state.slopeSolvers[0].vAlignPointOptic == facetDef.vFacetCentroid
      && r.state.calcFacet == Some([c.solveSlopes(r.state.slopeSolvers[0])])
    ensures r.error.None? ==>
      && st.measurement.Some?
      && r.state.blobIndex == Some(FindBlobs(c, st.dotLocations, st.params, st.measurement.value.image,
                                             ptKnown, [xyKnown]))
      && r.state.geometry.Some?
    ensures r.error.None? ==>
      var input := SingleFacetInput(c, st.orientation, st.camera, st.dotLocations, r.state.geometry.value,
                                    r.state.blobIndex.value, facetDef, st.measurement.value, surface);
      input.Ok? && r.state.slopeSolvers == [input.value]
    ensures |ptKnown| == 1 && st.measurement.Some? ==>
      var m := st.measurement.value;
      var raw := RawMask(c, st.params.mask, m.image);
      r.state.geometry == Some(c.singleFacetGeometry(
        facetDef, if st.params.mask.keepLargestArea then c.keepLargestMaskArea(raw) else raw,
        m.vMeasurePointFacet, m.distOpticScreen, st.orientation))
    ensures r.state.params == st.params
    ensures r.state.calcEnsemble == st.calcEnsemble && r.state.ensembleDef == st.ensembleDef
    ensures SameSetup(r.state, st)
  {
    if |ptKnown| != 1 then Outcome(st, Some(KnownPointCount(|ptKnown|)))
    else
      var s1 := st.(opticType := Single, numFacets := Some(1), facetDefs := [facetDef], surfaces := [surface]);
      match s1.measurement
      case None => Outcome(s1, Some(MissingAttribute))
      case Some(m) =>
        var blobs := FindBlobs(c, s1.dotLocations, s1.params, m.image, ptKnown, [xyKnown]);
        var s2 := s1.(blobIndex := Some(blobs));
        var mask := CalculateMask(c, s2.params.mask, s2.opticType, m.image);
        var s3 := s2.(params := s2.params.(mask := mask.params));
        var g := c.singleFacetGeometry(facetDef, mask.mask, m.vMeasurePointFacet, m.distOpticScreen, s3.orientation);
        var s4 := s3.(geometry := Some(g));
        match SingleFacetInput(c, s4.orientation, s4.camera, s4.dotLocations, g, blobs, facetDef, m, surface)
        case Err(e) => Outcome(s4, Some(e))
        case Ok(input) =>
          Outcome(s4.(slopeSolvers := [input], calcFacet := Some([c.solveSlopes(input)])), None)
  }

  /**
   * `process_multi_facet_optic` (lines 326-387). The chained length check
   * raises, before the instance is touched, only when every neighbouring
   * pair of lengths differs. Past it the run records an ensemble of as many
   * facets as facet definitions, indexes blobs from the zipped seeds,
   * switches "keep largest area" off for good, solves the geometry, rebuilds
   * the solver and slope lists from empty with one entry per facet, and
   * computes facet pointing against the average.
   */
  function ProcessMultiFacet(st: Orchestrator, c: Collaborators, facetDefs: seq<FacetDef>, surfaces: seq<Surface>,
                             ensembleDef: EnsembleDef, ptsKnown: seq<Vec2>, xysKnown: seq<DotIndex>): (r: Outcome)
    ensures ChainedNe(|facetDefs|, |surfaces|, |ptsKnown|, |xysKnown|) <==>
      r.error == Some(LengthMismatch(|facetDefs|, |surfaces|, |ptsKnown|, |xysKnown|))
    ensures ChainedNe(|facetDefs|, |surfaces|, |ptsKnown|, |xysKnown|) ==> r.state == st
    ensures !ChainedNe(|facetDefs|, |surfaces|, |ptsKnown|, |xysKnown|) && st.measurement.None? ==>
      r.error == Some(MissingAttribute)
    ensures !ChainedNe(|facetDefs|, |surfaces|, |ptsKnown|, |xysKnown|) && st.measurement.Some? ==>
      r.state.geometry.Some? &&
      (r.error.None? <==> ListsCover(r.state.geometry.value, ensembleDef, surfaces, |facetDefs|))
    ensures r.error.Some? ==> r.state.slopeSolvers == st.slopeSolvers && r.state.calcFacet == st.calcFacet
    ensures !ChainedNe(|facetDefs|, |surfaces|, |ptsKnown|, |xysKnown|) ==>
      && r.state.opticType == Multi
      && r.state.numFacets == Some(|facetDefs|)
      && r.state.facetDefs == facetDefs
      && r.state.surfaces == surfaces
      && r.state.ensembleDef == Some(ensembleDef)
    ensures r.error.None? ==>
      && |facetDefs| <= |surfaces|
      && !r.state.params.mask.keepLargestArea
      && |r.state.slopeSolvers| == |facetDefs|
      && (forall i :: 0 <= i < |facetDefs| ==> r.state.slopeSolvers[i].surface == surfaces[i])
      && r.state.calcFacet.Some? && |r.state.calcFacet.value| == |facetDefs|
      && (forall i :: 0 <= i < |facetDefs| ==> r.state.calcFacet.value[i] == c.solveSlopes(r.state.slopeSolvers[i]))
      && r.state.calcEnsemble.Some? && |r.state.calcEnsemble.value| == |facetDefs|
      && CalculateFacetPointing(r.state, c, Average) == r
    ensures r.error.None? ==>
      && st.measurement.Some?
      && r.state.blobIndex == Some(FindBlobs(c, st.dotLocations, st.params, st.measurement.value.image,
                                             ptsKnown, xysKnown))
      && r.state.geometry.Some?
    ensures r.error.None? ==>
      var inputs := MultiFacetInputs(c, st.orientation, st.camera, st.dotLocations, r.state.geometry.value,
                                     r.state.blobIndex.value, ensembleDef, surfaces, |facetDefs|);
      inputs.Ok? && r.state.slopeSolvers == inputs.value
    ensures !ChainedNe(|facetDefs|, |surfaces|, |ptsKnown|, |xysKnown|) && st.measurement.Some? ==>
      var m := st.measurement.value;
      && !r.state.params.mask.keepLargestArea
      && r.state.geometry == Some(c.multiFacetGeometry(facetDefs, ensembleDef, RawMask(c, st.params.mask, m.image),
                                                       m.vMeasurePointFacet, st.orientation, m.distOpticScreen))
    ensures r.state.params.mask.keepLargestArea ==> st.params.mask.keepLargestArea
    ensures r.state.params == st.params.(mask := r.state.params.mask)
    ensures r.state.params.mask == st.params.mask.(keepLargestArea := r.state.params.mask.keepLargestArea)
    ensures r.state.orientation == st.orientation && r.state.camera == st.camera
    ensures r.state.dotLocations == st.dotLocations && r.state.measurement == st.measurement
  {
    if ChainedNe(|facetDefs|, |surfaces|, |ptsKnown|, |xysKnown|) then
      Outcome(st, Some(LengthMismatch(|facetDefs|, |surfaces|, |ptsKnown|, |xysKnown|)))
    else
      var n := |facetDefs|;
      var s1 := st.(opticType := Multi, numFacets := Some(n), facetDefs := facetDefs,
                    ensembleDef := Some(ensembleDef), surfaces := surfaces);
      match s1.measurement
      case None => Outcome(s1, Some(MissingAttribute))
      case Some(m) =>
        var blobs := FindBlobs(c, s1.dotLocations, s1.params, m.image, ptsKnown, xysKnown);
        var s2 := s1.(blobIndex := Some(blobs));
        var mask := CalculateMask(c, s2.params.mask, s2.opticType, m.image);
        var s3 := s2.(params := s2.params.(mask := mask.params));
        var g := c.multiFacetGeometry(facetDefs, ensembleDef, mask.mask, m.vMeasurePointFacet, s3.orientation,
                                      m.distOpticScreen);
        var s4 := s3.(geometry := Some(g));
        match MultiFacetInputs(c, s4.orientation, s4.camera, s4.dotLocations, g, blobs, ensembleDef, surfaces, n)
        case Err(e) => Outcome(s4, Some(e))
        case Ok(inputs) => SolveEnsemble(s4, c, inputs)
  }

  /**
   * The end of `process_multi_facet_optic` (lines 377-387) once every facet
   * has its solver input: the solver and slope lists are rebuilt from empty,
   * one slope result per input, and facet pointing against the average
   * cannot fail, since the ensemble placements cover every facet.
   */
  function SolveEnsemble(st: Orchestrator, c: Collaborators, inputs: seq<SolverInput>): (r: Outcome)
    requires st.numFacets == Some(|inputs|) && st.ensembleDef.Some?
    requires |inputs| <= |st.ensembleDef.value.rFacetEnsemble| && |inputs| <= |st.ensembleDef.value.vFacetLocations|
    ensures r.error.None?
    ensures r.state.(calcEnsemble := st.calcEnsemble) == st.(slopeSolvers := inputs, calcFacet := r.state.calcFacet)
    ensures r.state.calcFacet.Some? && |r.state.calcFacet.value| == |inputs|
    ensures forall i :: 0 <= i < |inputs| ==> r.state.calcFacet.value[i] == c.solveSlopes(inputs[i])
    ensures r.state.calcEnsemble.Some? && |r.state.calcEnsemble.value| == |inputs|
    ensures CalculateFacetPointing(r.state, c, Average) == r
  {
    var solved := seq(|inputs|, i requires 0 <= i < |inputs| => c.solveSlopes(inputs[i]));
    var s5 := st.(slopeSolvers := inputs, calcFacet := Some(solved));
    assert FacetToEnsemble(c, PlacementsOf(s5), solved, |inputs|).Ok?;
    PointingIgnoresOldList(s5, c, Average, None);
    CalculateFacetPointing(s5, c, Average)
  }
}

=== FILE: results.dfy ===
/** Failure-carrying wrappers shared by the model. */
module Results {

  /** A value that may be absent (the source's `None`). */
  datatype Option<+T> = None | Some(value: T)

  /** The outcome of an operation that can raise. */
  datatype Result<+T, +E> = Ok(value: T) | Err(error: E)
}

=== FILE: runs.dfy ===
/**
 * Sequences of calls on one `ProcessSofastFixed` instance. A caller may
 * catch an exception and keep using the instance, so a run continues from
 * whatever state the failed call left behind.
 */
module Runs {
  import opened Linear
  import opened Results
  import opened Errors
  import opened Frames
  import opened Pointing
  import opened SofastData
  import opened SolverInputs
  import opened FacetPointing
  import opened Process
  import opened OpticOutput

  /** One public call on the instance, with its arguments. */
  datatype Call =
    | Load(m: Measurement)
    | RunSingle(facetDef: FacetDef, surface: Surface, ptKnown: seq<Vec2>, xyKnown: DotIndex)
    | RunMulti(facetDefs: seq<FacetDef>, surfaces: seq<Surface>, ensembleDef: EnsembleDef,
               ptsKnown: seq<Vec2>, xysKnown: seq<DotIndex>)
    | Repoint(ref: Reference)

  /** Whether a multi-facet call gets past the input check. */
  predicate PassesCheck(call: Call)
    requires call.RunMulti?
  {
    !ChainedNe(|call.facetDefs|, |call.surfaces|, |call.ptsKnown|, |call.xysKnown|)
  }

  /**
   * The effect of one call. Only loading replaces the measurement; only a
   * multi-facet call that gets past its check on a loaded instance can
   * switch "keep largest area" off, and nothing switches it on.
   */
  function Step(c: Collaborators, st: Orchestrator, call: Call): (r: Outcome)
    ensures call.Load? ==> r == Outcome(st.(measurement := Some(call.m)), None)
    ensures !call.Load? ==> r.state.measurement == st.measurement
    ensures r.state.params.mask.keepLargestArea ==> st.params.mask.keepLargestArea
    ensures call.RunMulti? && PassesCheck(call) && st.measurement.Some? ==> !r.state.params.mask.keepLargestArea
    ensures call.RunSingle? || call.Repoint? ==> r.state.params == st.params
    ensures call.Repoint? ==> r.state == st.(calcEnsemble := r.state.calcEnsemble)
  {
    match call
    case Load(m) => Outcome(LoadMeasurement(st, m), None)
    case RunSingle(fd, s, pt, xy) => ProcessSingleFacet(st, c, fd, s, pt, xy)
    case RunMulti(fds, ss, ed, pts, xys) => ProcessMultiFacet(st, c, fds, ss, ed, pts, xys)
    case Repoint(ref) => CalculateFacetPointing(st, c, ref)
  }

  /** The instance after every call of `calls` in order, each exception caught. */
  function Run(c: Collaborators, st: Orchestrator, calls: seq<Call>): Orchestrator
    decreases |calls|
  {
    if |calls| == 0 then st else Run(c, Step(c, st, calls[0]).state, calls[1..])
  }

  /**
   * A fresh instance has nothing to report: `get_optic` fails on the unset
   * facet count, re-pointing fails because no slopes were solved, and a
   * processing call that gets past its input check fails on the missing
   * measurement.
   */
  lemma FreshInstanceHasNoResults(c: Collaborators, orientation: Orientation, camera: Camera, dots: DotLocations,
                                  params: Params, interp: Interpolation, call: Call)
    ensures var st := Init(orientation, camera, dots, params);
      && GetOptic(c, st, interp) == Err(MissingAttribute)
      && (call.Repoint? ==> Step(c, st, call) == Outcome(st, Some(SlopesNotSolved)))
      && (call.RunSingle? && |call.ptKnown| == 1 ==> Step(c, st, call).error == Some(MissingAttribute))
      && (call.RunMulti? && PassesCheck(call) ==> Step(c, st, call).error == Some(MissingAttribute))
  {
  }

  /** Running a list of calls is running its first `i` calls, then the rest. */
  lemma {:induction false} RunSplits(c: Collaborators, st: Orchestrator, calls: seq<Call>, i: nat)
    requires i <= |calls|
    ensures Run(c, st, calls) == Run(c, Run(c, st, calls[..i]), calls[i..])
    decreases i
  {
    if i > 0 {
      var next := Step(c, st, calls[0]).state;
      RunSplits(c, next, calls[1..], i - 1);
      assert calls[1..][..i - 1] == calls[1..i];
      assert calls[..i][1..] == calls[1..i];
      assert calls[1..][i - 1..] == calls[i..];
    }
  }

  /** No sequence of calls switches "keep largest area" back on. */
  lemma {:induction false} FlagNeverComesBack(c: Collaborators, st: Orchestrator, calls: seq<Call>)
    ensures Run(c, st, calls).params.mask.keepLargestArea ==> st.params.mask.keepLargestArea
    decreases |calls|
  {
    if |calls| > 0 {
      FlagNeverComesBack(c, Step(c, st, calls[0]).state, calls[1..]);
    }
  }

  /** Once a run has the measurement loaded, it keeps one. */
  lemma {:induction false} MeasurementStaysLoaded(c: Collaborators, st: Orchestrator, calls: seq<Call>)
    requires st.measurement.Some?
    ensures Run(c, st, calls).measurement.Some?
    decreases |calls|
  {
    if |calls| > 0 {
      MeasurementStaysLoaded(c, Step(c, st, calls[0]).state, calls[1..]);
    }
  }

  /**
   * A multi-facet call that gets past its check on a loaded instance turns
   * "keep largest area" off for every later call, single-facet ones included,
   * whether it later succeeds or not. Collaborators never fail here, so
   * every such call reaches the mask step, where the option is cleared.
   */
  lemma MultiRunClearsFlagForGood(c: Collaborators, st: Orchestrator, calls: seq<Call>, i: nat)
    requires i < |calls| && calls[i].RunMulti? && PassesCheck(calls[i])
    requires Run(c, st, calls[..i]).measurement.Some?
    ensures !Run(c, st, calls).params.mask.keepLargestArea
  {
    RunSplits(c, st, calls, i);
    var before := Run(c, st, calls[..i]);
    var after := Step(c, before, calls[i]).state;
    assert !after.params.mask.keepLargestArea;
    assert Run(c, before, calls[i..]) == Run(c, after, calls[i + 1..]) by {
      assert calls[i..][1..] == calls[i + 1..];
    }
    FlagNeverComesBack(c, after, calls[i + 1..]);
  }

  /**
   * A successful single-facet run leaves no result of an earlier run behind:
   * two instances with the same setup end with the same per-facet results,
   * whatever they held before. The ensemble list is the exception; a
   * single-facet run never touches it.
   */
  lemma SingleRunReplacesResults(c: Collaborators, a: Orchestrator, b: Orchestrator, call: Call)
    requires call.RunSingle? && SameSetup(a, b)
    ensures Step(c, a, call).error == Step(c, b, call).error
    ensures Step(c, a, call).error.None? ==>
      var ra := Step(c, a, call).state;
      var rb := Step(c, b, call).state;
      ra == rb.(calcEnsemble := a.calcEnsemble, ensembleDef := a.ensembleDef)
  {
  }

  /**
   * A successful multi-facet run leaves no result of an earlier run behind:
   * two instances with the same setup end in the same state.
   */
  lemma MultiRunReplacesResults(c: Collaborators, a: Orchestrator, b: Orchestrator, call: Call)
    requires call.RunMulti? && SameSetup(a, b)
    ensures Step(c, a, call).error == Step(c, b, call).error
    ensures Step(c, a, call).error.None? ==> Step(c, a, call).state == Step(c, b, call).state
  {
  }

  /**
   * Repeating a successful processing call changes nothing: the run reads
   * only the setup and its arguments, and the one option it may switch off
   * does not reach the raw mask.
   */
  lemma RepeatedRunIsStable(c: Collaborators, st: Orchestrator, call: Call)
    requires call.RunSingle? || call.RunMulti?
    requires Step(c, st, call).error.None?
    ensures Step(c, Step(c, st, call).state, call) == Step(c, st, call)
  {
  }

  /**
   * Three facet definitions with two surfaces, two known points and two
   * known indices pass the chained check: the instance switches to a
   * three-facet ensemble and the run then fails reading the third surface.
   */
  lemma ShortSurfaceListFailsLate(c: Collaborators, st: Orchestrator, call: Call)
    requires call.RunMulti? && st.measurement.Some?
    requires |call.facetDefs| == 3 && |call.surfaces| == 2 && |call.ptsKnown| == 2 && |call.xysKnown| == 2
    ensures Step(c, st, call).state.opticType == Multi
    ensures Step(c, st, call).state.numFacets == Some(3)
    ensures Step(c, st, call).error == Some(IndexOutOfRange)
    ensures Step(c, st, call).state.slopeSolvers == st.slopeSolvers
    ensures Step(c, st, call).state.calcFacet == st.calcFacet
  {
  }
}

=== FILE: sofast_data.dfy ===
/**
 * Records of the fixed-pattern orchestrator (`ProcessSofastFixed`): its
 * configuration, the calculation records a run produces, and the
 * collaborators it calls but whose code is not part of this model.
 */
module SofastData {
  import opened Linear
  import opened Results
  import opened Errors
  import opened Frames

  /** A 2-D intensity array. */
  type Image = seq<seq<real>>

  /** Optic (true) versus background (false) per pixel. */
  type Mask = seq<seq<bool>>

  type PosReal = r: real | r > 0.0 witness 1.0

  /** Integer xy index of a dot of the fixed pattern. */
  datatype DotIndex = DotIndex(ix: int, iy: int)

  /** `MeasurementSofastFixed`: the captured image and the measure point. */
  datatype Measurement = Measurement(image: Image, vMeasurePointFacet: Vec3, distOpticScreen: real)

  /** `DefinitionFacet`: facet corners and centroid in facet coordinates. */
  datatype FacetDef = FacetDef(vFacetCorners: seq<Vec3>, vFacetCentroid: Vec3)

  /** `DefinitionEnsemble`: rotation and location of every facet in the ensemble frame. */
  datatype EnsembleDef = EnsembleDef(rFacetEnsemble: seq<Mat3>, vFacetLocations: seq<Vec3>)

  /** `Surface2DAbstract`: the assumed surface model handed to the slope solver. */
  datatype Surface = Surface(kind: string, coefficients: seq<real>)

  /** `Camera`: its pixel -> pointing-ray calibration. */
  datatype Camera = Camera(vectorFromPixel: seq<Vec2> -> seq<Vec3>)

  /** `DotLocationsFixedPattern`: the index extent and the index -> screen-point map. */
  datatype DotLocations = DotLocations(dotExtent: seq<int>, xyIndicesToScreen: seq<DotIndex> -> seq<Vec3>)

  /** Mask options of `ParamsSofastFixed`. */
  datatype MaskParams = MaskParams(
    histThresh: real,
    filtWidth: int,
    filtThresh: int,
    threshActivePixels: int,
    keepLargestArea: bool)

  /** `ParamsSofastFixed`, restricted to what the orchestrator reads itself. */
  datatype Params = Params(mask: MaskParams, blobSearchThresh: real, searchPerpAxisRatio: real)

  /** One `BlobIndex.run` call: a known pixel and its known dot index. */
  datatype Seed = Seed(pt: Vec2, ix: int, iy: int)

  /**
   * A `BlobIndex` as configured by the orchestrator: the detected blobs, the
   * search settings and the seed runs in call order. What the indexing makes
   * of them is a collaborator's business.
   */
  datatype BlobIndex = BlobIndex(
    points: seq<Vec2>,
    dotExtent: seq<int>,
    searchThresh: real,
    searchPerpAxisRatio: real,
    seeds: seq<Seed>)

  /** Image points with their dot indices, as `get_data` returns them. */
  datatype IndexedPoints = IndexedPoints(pixels: seq<Vec2>, indices: seq<DotIndex>)

  /** The fields of `CalculationDataGeometryGeneral` the orchestrator reads. */
  datatype GeometryGeneral = GeometryGeneral(
    rOpticCamRefine1: Mat3,
    vCamOpticCamRefine2: Vec3,
    rOpticCamRefine2: Mat3,
    vCamOpticCamRefine3: Vec3)

  /** The fields of `CalculationDataGeometryFacet` the orchestrator reads. */
  datatype GeometryFacet = GeometryFacet(
    uCamMeasurePointFacet: Vec3,
    vAlignPointFacet: Vec3,
    measurePointScreenDistance: real)

  /** The field of `CalculationImageProcessingFacet` the orchestrator reads. */
  datatype ImageProcessingFacet = ImageProcessingFacet(loopFacetImageRefine: seq<Vec2>)

  /** What `process_*_geometry` returns: general data and the per-facet lists. */
  datatype Geometry = Geometry(
    general: GeometryGeneral,
    facets: seq<GeometryFacet>,
    imageProcessingFacets: seq<ImageProcessingFacet>)

  /** The keyword arguments a `SlopeSolver` is built from, one record per facet. */
  datatype SolverInput = SolverInput(
    vOpticCamOptic: Vec3,
    uActivePixelPointingOptic: seq<Vec3>,
    uMeasurePixelPointingOptic: Vec3,
    vScreenPointsFacet: seq<Vec3>,
    vOpticScreenOptic: Vec3,
    vAlignPointOptic: Vec3,
    distOpticScreen: real,
    surface: Surface)

  /** `SlopeSolverData`: what a solved facet provides. */
  datatype SlopeData = SlopeData(transAlignment: Transform, slopesFacetXY: seq<Vec2>, vSurfPointsFacet: seq<Vec3>)

  /** `CalculationFacetEnsemble`: one facet re-expressed in the ensemble frame. */
  datatype EnsembleData = EnsembleData(
    transFacetEnsemble: Transform,
    slopesEnsembleXY: seq<Option<Vec2>>,
    vSurfPointsEnsemble: seq<Vec3>,
    vFacetPointingEnsemble: Vec3)

  /**
   * Library code the orchestrator calls: blob detection, blob-index queries,
   * mask building, optic geometry, the slope solver, `TransformXYZ`
   * composition and application, `Vxyz.align_to`, and the length by which
   * `Uxyz` divides a vector (a positive factor).
   */
  datatype Collaborators = Collaborators(
    detectBlobs: Image -> seq<Vec2>,
    getData: BlobIndex -> IndexedPoints,
    getDataInRegion: (BlobIndex, seq<Vec2>) -> IndexedPoints,
    calcMaskRaw: (Image, Image, real, int, int, int) -> Mask,
    keepLargestMaskArea: Mask -> Mask,
    singleFacetGeometry: (FacetDef, Mask, Vec3, real, Orientation) -> Geometry,
    multiFacetGeometry: (seq<FacetDef>, EnsembleDef, Mask, Vec3, Orientation, real) -> Geometry,
    solveSlopes: SolverInput -> SlopeData,
    compose: (Transform, Transform) -> Transform,
    applyTransform: (Transform, Vec3) -> Vec3,
    alignTo: Vec3 -> Mat3,
    unitScale: Vec3 -> PosReal)

  /** `optic_type`; `Undefined` stands for the initial `None`. */
  datatype OpticType = Undefined | Single | Multi

  /**
   * The orchestrator instance. Options and empty lists stand for attributes
   * a fresh instance has not set yet.
   */
  datatype Orchestrator = Orchestrator(
    orientation: Orientation,
    camera: Camera,
    dotLocations: DotLocations,
    params: Params,
    measurement: Option<Measurement>,
    numFacets: Option<nat>,
    opticType: OpticType,
    facetDefs: seq<FacetDef>,
    ensembleDef: Option<EnsembleDef>,
    surfaces: seq<Surface>,
    blobIndex: Option<BlobIndex>,
    geometry: Option<Geometry>,
    slopeSolvers: seq<SolverInput>,
    calcFacet: Option<seq<SlopeData>>,
    calcEnsemble: Option<seq<EnsembleData>>)

  /**
   * The instance after a call, and the exception the call raised, if any.
   * Assignments made before a raise stay, as they do on the Python instance.
   */
  datatype Outcome = Outcome(state: Orchestrator, error: Option<Error>)
}

=== FILE: solver_inputs.dfy ===
/**
 * The preparatory steps of a processing run: blob indexing seeds, the mask
 * with its "keep largest area" option, and the per-facet slope-solver inputs.
 */
module SolverInputs {
  import opened Linear
  import opened Results
  import opened Errors
  import opened Frames
  import opened SofastData

  function Min(a: int, b: int): int {
    if a < b then a else b
  }

  /** Python's `zip` of known points and known indices: pairs up to the shorter list. */
  function Zip(pts: seq<Vec2>, xys: seq<DotIndex>): (seeds: seq<Seed>)
    ensures |seeds| == Min(|pts|, |xys|)
    ensures forall i :: 0 <= i < |seeds| ==> seeds[i] == Seed(pts[i], xys[i].ix, xys[i].iy)
  {
    if |pts| == 0 || |xys| == 0 then []
    else [Seed(pts[0], xys[0].ix, xys[0].iy)] + Zip(pts[1..], xys[1..])
  }

  /**
   * `find_blobs` (ProcessSofastFixed.py lines 90-111): the detected blobs go
   * into a new index with the configured search settings, and one seed run
   * is made per known point, in order, as far as the shorter of the two
   * known lists reaches.
   */
  function FindBlobs(c: Collaborators, dots: DotLocations, params: Params, image: Image,
                     ptsKnown: seq<Vec2>, xysKnown: seq<DotIndex>): (b: BlobIndex)
    ensures b.points == c.detectBlobs(image) && b.dotExtent == dots.dotExtent
    ensures b.searchThresh == params.blobSearchThresh && b.searchPerpAxisRatio == params.searchPerpAxisRatio
    ensures |b.seeds| == Min(|ptsKnown|, |xysKnown|)
    ensures forall i :: 0 <= i < |b.seeds| ==> b.seeds[i] == Seed(ptsKnown[i], xysKnown[i].ix, xysKnown[i].iy)
  {
    BlobIndex(c.detectBlobs(image), dots.dotExtent, params.blobSearchThresh, params.searchPerpAxisRatio,
              Zip(ptsKnown, xysKnown))
  }

  /** `image * 0`: an all-dark image of the same shape. */
  function DarkImage(image: Image): (d: Image)
    ensures |d| == |image|
    ensures forall i :: 0 <= i < |d| ==> |d[i]| == |image[i]|
    ensures forall i, j :: 0 <= i < |d| && 0 <= j < |d[i]| ==> d[i][j] == 0.0
  {
    seq(|image|, i requires 0 <= i < |image| => seq(|image[i]|, j => 0.0))
  }

  /**
   * `calc_mask_raw` on the dark and measured images with the four threshold
   * settings; the "keep largest area" option is not among its arguments.
   */
  function RawMask(c: Collaborators, p: MaskParams, image: Image): Mask {
    c.calcMaskRaw(DarkImage(image), image, p.histThresh, p.filtWidth, p.filtThresh, p.threshActivePixels)
  }

  /** The raw mask depends on the four threshold settings only, not on the "keep largest area" option. */
  lemma RawMaskIgnoresKeepOption(c: Collaborators, p: MaskParams, image: Image, keep: bool)
    ensures RawMask(c, p.(keepLargestArea := keep), image) == RawMask(c, p, image)
  {
  }

  /** The mask of a run and the mask options the instance is left with. */
  datatype MaskStep = MaskStep(mask: Mask, params: MaskParams, warned: bool)

  /**
   * `_calculate_mask` (lines 113-134). In a multi-facet run the "keep
   * largest area" option is switched off, with a warning, and stays off on
   * the instance; otherwise it filters the raw mask when set.
   */
  function CalculateMask(c: Collaborators, p: MaskParams, opticType: OpticType, image: Image): (r: MaskStep)
    ensures var raw := RawMask(c, p, image);
      && (opticType == Multi && p.keepLargestArea ==> r.mask == raw && r.warned)
      && (opticType != Multi && p.keepLargestArea ==> r.mask == c.keepLargestMaskArea(raw) && !r.warned)
      && (!p.keepLargestArea ==> r.mask == raw && !r.warned)
    ensures r.params.keepLargestArea <==> p.keepLargestArea && opticType != Multi
    ensures r.params == p.(keepLargestArea := r.params.keepLargestArea)
  {
    var raw := RawMask(c, p, image);
    if opticType == Multi && p.keepLargestArea then
      MaskStep(raw, p.(keepLargestArea := false), true)
    else if p.keepLargestArea then
      MaskStep(c.keepLargestMaskArea(raw), p, false)
    else
      MaskStep(raw, p, false)
  }

  /**
   * Slope-solver input for an optic or facet with camera pose `p`, from its
   * indexed image points: screen points and pixel rays in the optic frame.
   */
  function PoseInput(o: Orientation, camera: Camera, dots: DotLocations, p: CameraPose, pts: IndexedPoints,
                     uMeasure: Vec3, vAlign: Vec3, dist: real, surface: Surface): (r: SolverInput)
    ensures r.surface == surface && r.vAlignPointOptic == vAlign && r.distOpticScreen == dist
    ensures r.uMeasurePixelPointingOptic == uMeasure
    ensures |r.vScreenPointsFacet| == |dots.xyIndicesToScreen(pts.indices)|
    ensures |r.uActivePixelPointingOptic| == |camera.vectorFromPixel(pts.pixels)|
    ensures Orthonormal(p.rOpticCam) ==>
      && OpticToCamera(p, r.vOpticCamOptic) == Zero
      && OpticToCamera(p, r.vOpticScreenOptic) == o.vCamScreenCam
      && (forall i :: 0 <= i < |r.uActivePixelPointingOptic| ==>
            Apply(p.rOpticCam, r.uActivePixelPointingOptic[i]) == camera.vectorFromPixel(pts.pixels)[i])
    ensures Orthonormal(p.rOpticCam) ==>
      forall i :: 0 <= i < |r.vScreenPointsFacet| ==>
        OpticToCamera(p, r.vScreenPointsFacet[i]) == ScreenToCamera(o, dots.xyIndicesToScreen(pts.indices)[i])
  {
    var f := FrameOf(o, p);
    SolverInput(
      f.vOpticCamOptic,
      RaysInOptic(p, camera.vectorFromPixel(pts.pixels)),
      uMeasure,
      ScreenPointsInOptic(o, p, dots.xyIndicesToScreen(pts.indices)),
      f.vOpticScreenOptic,
      vAlign,
      dist,
      surface)
  }

  /**
   * `_process_optic_singlefacet_geometry` after the geometry call (lines
   * 165-204): all indexed points, the optic pose (the rotation of the first
   * refinement with the position of the second, lines 169-170), the facet
   * centroid as alignment point and the measured optic-screen distance. Reading the
   * first per-facet geometry record raises `IndexError` when there is none.
   */
  function SingleFacetInput(c: Collaborators, o: Orientation, camera: Camera, dots: DotLocations, g: Geometry,
                            blobs: BlobIndex, facetDef: FacetDef, m: Measurement, surface: Surface)
    : (r: Result<SolverInput, Error>)
    ensures r.Ok? <==> |g.facets| > 0
    ensures r.Err? ==> r.error == IndexOutOfRange
    ensures r.Ok? ==>
      && r.value.surface == surface
      && r.value.vAlignPointOptic == facetDef.vFacetCentroid
      && r.value.distOpticScreen == m.distOpticScreen
      && r.value.uMeasurePixelPointingOptic == g.facets[0].uCamMeasurePointFacet
    ensures r.Ok? ==>
      var pts := c.getData(blobs);
      && |r.value.vScreenPointsFacet| == |dots.xyIndicesToScreen(pts.indices)|
      && |r.value.uActivePixelPointingOptic| == |camera.vectorFromPixel(pts.pixels)|
    ensures r.Ok? && Orthonormal(g.general.rOpticCamRefine1) ==>
      var p := CameraPose(g.general.rOpticCamRefine1, g.general.vCamOpticCamRefine2);
      var pts := c.getData(blobs);
      && OpticToCamera(p, r.value.vOpticCamOptic) == Zero
      && OpticToCamera(p, r.value.vOpticScreenOptic) == o.vCamScreenCam
      && (forall k :: 0 <= k < |r.value.uActivePixelPointingOptic| ==>
            Apply(p.rOpticCam, r.value.uActivePixelPointingOptic[k]) == camera.vectorFromPixel(pts.pixels)[k])
      && (forall k :: 0 <= k < |r.value.vScreenPointsFacet| ==>
            OpticToCamera(p, r.value.vScreenPointsFacet[k]) == ScreenToCamera(o, dots.xyIndicesToScreen(pts.indices)[k]))
  {
    if |g.facets| == 0 then Err(IndexOutOfRange)
    else
      var pose := CameraPose(g.general.rOpticCamRefine1, g.general.vCamOpticCamRefine2);
      Ok(PoseInput(o, camera, dots, pose, c.getData(blobs),
                   g.facets[0].uCamMeasurePointFacet, facetDef.vFacetCentroid, m.distOpticScreen, surface))
  }

  /** Whether the lists read for facet `i` of a multi-facet run all reach index `i`. */
  predicate FacetListsReach(g: Geometry, ens: EnsembleDef, surfaces: seq<Surface>, i: nat) {
    ListsCover(g, ens, surfaces, i + 1)
  }

  /** Whether every list read per facet has at least `n` entries. */
  predicate ListsCover(g: Geometry, ens: EnsembleDef, surfaces: seq<Surface>, n: nat) {
    && n <= |g.imageProcessingFacets|
    && n <= |ens.rFacetEnsemble|
    && n <= |ens.vFacetLocations|
    && n <= |g.facets|
    && n <= |surfaces|
  }

  /**
   * Slope-solver input of facet `i` (loop body of lines 227-279): the
   * indexed points inside the facet's image region, the facet pose built
   * from the ensemble pose (the rotation of the second refinement with the
   * position of the third, lines 236-239) and the facet's placement, the facet's own
   * alignment point and screen distance, and surface `i`.
   */
  function FacetInput(c: Collaborators, o: Orientation, camera: Camera, dots: DotLocations, g: Geometry,
                      blobs: BlobIndex, ens: EnsembleDef, surfaces: seq<Surface>, i: nat): (r: SolverInput)
    requires FacetListsReach(g, ens, surfaces, i)
    ensures r.surface == surfaces[i]
    ensures r.vAlignPointOptic == g.facets[i].vAlignPointFacet
    ensures r.distOpticScreen == g.facets[i].measurePointScreenDistance
    ensures r.uMeasurePixelPointingOptic == g.facets[i].uCamMeasurePointFacet
    ensures
      var pts := c.getDataInRegion(blobs, g.imageProcessingFacets[i].loopFacetImageRefine);
      && |r.vScreenPointsFacet| == |dots.xyIndicesToScreen(pts.indices)|
      && |r.uActivePixelPointingOptic| == |camera.vectorFromPixel(pts.pixels)|
    ensures Orthonormal(Mul(g.general.rOpticCamRefine2, ens.rFacetEnsemble[i])) ==>
      var e := CameraPose(g.general.rOpticCamRefine2, g.general.vCamOpticCamRefine3);
      var p := FacetCameraPose(e, ens.rFacetEnsemble[i], ens.vFacetLocations[i]);
      var pts := c.getDataInRegion(blobs, g.imageProcessingFacets[i].loopFacetImageRefine);
      && OpticToCamera(e, Add(ens.vFacetLocations[i], Apply(ens.rFacetEnsemble[i], r.vOpticScreenOptic))) == o.vCamScreenCam
      && OpticToCamera(p, r.vOpticCamOptic) == Zero
      && OpticToCamera(p, r.vOpticScreenOptic) == o.vCamScreenCam
      && (forall k :: 0 <= k < |r.uActivePixelPointingOptic| ==>
            Apply(p.rOpticCam, r.uActivePixelPointingOptic[k]) == camera.vectorFromPixel(pts.pixels)[k])
      && (forall k :: 0 <= k < |r.vScreenPointsFacet| ==>
            OpticToCamera(p, r.vScreenPointsFacet[k]) == ScreenToCamera(o, dots.xyIndicesToScreen(pts.indices)[k]))
  {
    var ensemble := CameraPose(g.general.rOpticCamRefine2, g.general.vCamOpticCamRefine3);
    var p := FacetCameraPose(ensemble, ens.rFacetEnsemble[i], ens.vFacetLocations[i]);
    var pts := c.getDataInRegion(blobs, g.imageProcessingFacets[i].loopFacetImageRefine);
    PoseInput(o, camera, dots, p, pts, g.facets[i].uCamMeasurePointFacet,
              g.facets[i].vAlignPointFacet, g.facets[i].measurePointScreenDistance, surfaces[i])
  }

  /**
   * `_process_optic_multifacet_geometry` after the geometry call: the list
   * of solver inputs is built from empty with one entry per facet, entry
   * `i` from surface `i`; a list too short for some facet raises `IndexError`.
   */
  function MultiFacetInputs(c: Collaborators, o: Orientation, camera: Camera, dots: DotLocations, g: Geometry,
                            blobs: BlobIndex, ens: EnsembleDef, surfaces: seq<Surface>, n: nat)
    : (r: Result<seq<SolverInput>, Error>)
    ensures r.Ok? <==> ListsCover(g, ens, surfaces, n)
    ensures r.Err? ==> r.error == IndexOutOfRange
    ensures r.Ok? ==> |r.value| == n
    ensures r.Ok? ==> forall i :: 0 <= i < n ==>
      && r.value[i].surface == surfaces[i]
      && r.value[i].vAlignPointOptic == g.facets[i].vAlignPointFacet
      && r.value[i].distOpticScreen == g.facets[i].measurePointScreenDistance
      && r.value[i] == FacetInput(c, o, camera, dots, g, blobs, ens, surfaces, i)
  {
    if !ListsCover(g, ens, surfaces, n) then
      Err(IndexOutOfRange)
    else
      Ok(seq(n, i requires 0 <= i < n => FacetInput(c, o, camera, dots, g, blobs, ens, surfaces, i)))
  }
}
